=== FILE: README.md ===
# S3Verify in Dafny

S3Verify is two diagnostic scripts for an S3-compatible object store:

- **`0_verify_s3.py`** reads five required environment variables. It then runs three connection scenarios: `tls_default`, `tls_custom_bundle` and `http_connection`. Each scenario creates a folder marker and a file, downloads the file and compares the bytes. Afterwards the script lists the bucket and deletes every key a successful scenario created.
- **`main.py`** normalises `AWS_S3_ENDPOINT` to `host:443`. It connects through a three-stage TLS fallback:
  1. the default trust store;
  2. a CA bundle extracted with OpenSSL into `storage.crt`;
  3. a client built with `verify_ssl=False`.

  It then runs four S3 steps, each of which may fail without stopping the others. It closes with summary messages chosen by two flags, `ssl_failed` and `cert_bundle_used`.

The model describes each script as pure functions over explicit values:

- the process environment is a `map<string, string>`;
- the bucket is a map from key to bytes;
- every S3 SDK call is an abstract reply the caller supplies: success, an SDK exception (`BotoCoreError`/`ClientError`) or some other exception;
- printing is replaced by the sequence of log lines a run produces.

Modules:

- `Common`: option and result types, bytes, the environment, and the client's `verify` setting.
- `Text`: the Python `str` operations the scripts use (`strip`, `replace`, `split(c)[0]`, `lower`), with contracts or lemmas stating their meaning.
- `Log`: the `[step] [status] message` lines.
- `Endpoint`: `check_env_var`.
- `Fallback`: `connect_to_s3` and the fallback block, written as a state machine over the server's answers.
- `Diagnostic`: the four-step loop, the summary and the whole `main.py`.
- `EnvConfig`: `get_aws_config`.
- `ClientModes`: `create_s3_client`.
- `ObjectTasks`: `perform_s3_tasks`, `list_all_files`, `cleanup` and the file-key derivation.
- `VerifyRun`: `main` of `0_verify_s3.py`.

Notes on the code's behaviour that the model keeps:

- The third fallback stage of `main.py` still uses `https://`: `connect_to_s3` always builds an `https://` URL (main.py:28), and only certificate verification changes. Only `create_s3_client` in `0_verify_s3.py` rewrites the scheme to `http://`.
- The remediation advice is always the last summary message (main.py:107-113), whether or not the fallback was used.
- An SDK exception while constructing a client in `0_verify_s3.py` calls `exit(1)` (0_verify_s3.py:70-72). That `SystemExit` is not caught by `except Exception`, so it ends the whole run, skipping the remaining scenarios, the listing and the cleanup.
- `cleanup` catches only SDK exceptions (0_verify_s3.py:110). Any other exception ends the deletion loop early.

## Model

| member | source | states |
|---|---|---|
| Text.TrimLeft | main.py:12 | the result is the longest suffix whose first character is not strippable; every dropped character is strippable |
| Text.TrimRight | main.py:12 | the result is the longest prefix whose last character is not strippable; every dropped character is strippable |
| Text.TrimLeftPad | main.py:12 | `lstrip` removes leading strippable padding up to the first character that is not strippable |
| Text.TrimRightPad | main.py:12 | `rstrip` removes trailing strippable padding back to the last character that is not strippable |
| Text.TrimPad | main.py:12 | `strip` removes strippable padding on both sides of a string whose ends are not strippable |
| Text.PrefixBefore | main.py:12 | `split(c)[0]`: a prefix of the input without `c`, ending at the first `c` or at the end |
| Text.PrefixBeforeUnique | main.py:12 | those three conditions determine the result of `split(c)[0]` uniquely |
| Text.ReplaceAll | main.py:12 | `replace(pat, rep)`: replacing a pattern by itself changes nothing, and a replacement of the same length keeps the length; `ReplaceAllNoMatch` and `ReplaceAllAtFirst` state the rest |
| Text.ReplaceAllAtFirst | main.py:12 | at the leftmost occurrence, `replace` keeps the text before it, writes the replacement and continues on the rest of the string, never rescanning the replacement |
| Text.ReplaceAllNoMatch | main.py:12 | `replace` leaves a string alone when the pattern never occurs in it |
| Text.ReplaceAllMissingChar | main.py:12 | `replace` leaves a string alone when it lacks one of the pattern's characters |
| Text.FirstOccurrence | 0_verify_s3.py:57 | the index of the leftmost occurrence of the pattern, or the length when there is none: the pattern occurs there and nowhere before |
| Text.ReplaceFirst | 0_verify_s3.py:56-57 | `replace(pat, rep, 1)`: with no occurrence the string is unchanged; otherwise the text before the leftmost occurrence, the replacement, and the text after that occurrence |
| Text.ReplaceChar | 0_verify_s3.py:75 | same length; each occurrence of the character becomes the replacement and every other character is kept |
| Text.Lower | 0_verify_s3.py:22 | same length; ASCII capitals become the matching small letters, every other character is kept, and no capital remains |
| Endpoint.Normalise | main.py:12 | the normalised endpoint ends in `:443` and has no `:` before that suffix |
| Endpoint.NormaliseOneColon | main.py:12 | the normalised endpoint contains exactly one `:` |
| Endpoint.NormaliseKeepsHost | main.py:12 | for any surrounding whitespace, no scheme, `https://` or `http://`, a bare host and an optional numeric port, the result is the host followed by `:443` |
| Endpoint.NormaliseExample | main.py:12 | `https://s3.example:9000` becomes `s3.example:443` |
| Diagnostic.NotSetRendered | main.py:11-16 | the unset-variable line prints as `[ENV CHECK] [ERROR] Environment variable '<name>' is not set.` |
| Endpoint.CheckEnvVar | main.py:8-12 | unset: an ERROR line, then the `AttributeError` of `None.strip()`; empty: an ERROR line and the value `:443`; set and non-empty: no line and the normalised value |
| Fallback.ConnectToS3 | main.py:19-30 | always HTTPS to the given endpoint; a set, non-empty `AWS_CA_BUNDLE` becomes the verify path; otherwise verification follows `verify_ssl` |
| Fallback.BundleOverridesVerifySsl | main.py:29 | with a bundle set, `verify_ssl=False` makes no difference and verification stays on |
| Fallback.Transit | main.py:52-73 | one server answer moves the block on: it connects exactly on success, a non-SSL failure re-raises that exception, only an SSL failure leads to the next stage, and the two flags are never cleared |
| Fallback.Step | main.py:52-73 | each attempt is recorded once, for the current stage, with its answer, after the earlier ones; earlier log lines are kept |
| Fallback.Run | main.py:52-73 | running the block over a sequence of answers adds at most one attempt per answer, keeps the earlier attempts, and uses every answer when it is still trying |
| Fallback.Connect | main.py:48-73 | from the initial state (both flags false, default stage) the block reaches a state of the fallback machine; its attempts carry the answers in order, at most one per answer |
| Fallback.RunAttempts | main.py:52-73 | the attempts the block adds carry the server's answers in the order they were consumed |
| Fallback.FallbackOrder | main.py:52-73 | at most three attempts, in the order default, bundle, no-verify; only an SSL failure leads to the next attempt; every attempt goes to `https://` plus the endpoint; only the first two call `list_buckets` |
| Fallback.FallbackDecides | main.py:52-73 | with answers for all three stages, the block always ends connected or raised |
| Fallback.OtherFailureIsFatal | main.py:52-56 | a non-SSL failure of the first attempt is re-raised after one attempt, with both flags false |
| Fallback.ExtractionFailureIsFatal | main.py:56-62 | a failed certificate extraction ends the block after the first attempt |
| Fallback.FullFallback | main.py:52-73 | two SSL failures followed by a successful third attempt give the attempts default, bundle, no-verify; `ssl_failed` is set and the bundle becomes `storage.crt` |
| Fallback.FlagsMeaning | main.py:48-66 | `ssl_failed` holds exactly when the bundle retry failed on SSL. As written, `cert_bundle_used` holds exactly when the first attempt failed on SSL and extraction succeeded. Corrected, it holds exactly when the bundle retry connected |
| Fallback.DecidedFlags | main.py:48-73 | the block connects exactly when its last attempt succeeds. Once connected, `ssl_failed` holds exactly when three attempts were needed. As written, `cert_bundle_used` holds exactly when at least two were needed; corrected, exactly when two were needed |
| Fallback.ThirdAttemptKeepsBundle | main.py:60-69 | as written, the third attempt still verifies against `storage.crt` |
| Fallback.ThirdAttemptUnverified | main.py:67-70 | corrected, the third attempt uses no certificate verification, and without a preset bundle the earlier attempts verify |
| Fallback.BundleFlagWithoutBundleSuccess | main.py:59-66 | as written, after SSL failures on both the default and bundle attempts, `cert_bundle_used` and `ssl_failed` are both set |
| Fallback.CorrectedFlagsExclusive | main.py:59-66 | corrected, `cert_bundle_used` and `ssl_failed` are never both set |
| Diagnostic.RunSteps | main.py:79-93 | every step prints at least its INFO line and one closing line; `StepLoop` counts the lines by status, and `StepLinesPresent` and `StepLinesOnly` tie each ERROR, SUCCESS and FILE line to its step |
| Diagnostic.RunScript | main.py:43-117 | at most three connection attempts; a completed run ends with the remediation advice; `ScriptShape`, `ScriptCompletesIffConnected` and `ScriptSummary` state the attempts, completion and summary, and `ScriptStepLines` the step lines |
| Diagnostic.FileLines | main.py:88-90 | one FILE line per listed key, in order, carrying that key |
| Diagnostic.StepLoop | main.py:79-93 | every step prints its INFO line. There are as many INFO lines as steps, as many ERROR lines as failing steps, and as many SUCCESS lines as the remaining steps. FILE lines come only from Step 5 |
| Diagnostic.StepLogLines | main.py:85-93 | one step prints, besides its INFO line, the ERROR line `action failed: error` exactly when its call failed, the SUCCESS line `action completed successfully.` exactly when it passed, and, for a passing Step 5, a FILE line for every listed key; FILE lines appear only then and name only listed keys |
| Diagnostic.StepLinesPresent | main.py:79-93 | in the loop, each failing step prints its ERROR line with its action and the exception text, each passing step its SUCCESS line, and a successful Step 5 a FILE line for every listed key |
| Diagnostic.StepLinesOnly | main.py:79-93 | conversely, every ERROR line is the closing line of a failing step, every SUCCESS line that of a passing step, and every FILE line names a key listed by a successful Step 5 |
| Diagnostic.Summary | main.py:96-113 | the HTTP message appears first and exactly when `ssl_failed`; the bundle message appears exactly when `cert_bundle_used`, just before the last message; the remediation advice is always last |
| Diagnostic.ScriptWithoutEndpoint | main.py:44 | without `AWS_S3_ENDPOINT` the script logs one ERROR line and crashes before any connection attempt |
| Diagnostic.ScriptShape | main.py:44-73 | the run's attempts are those of the fallback block on the normalised endpoint; it completes exactly when the block did not raise, and then the summary follows the two flags |
| Diagnostic.ScriptCompletesIffConnected | main.py:44-73 | the script completes exactly when the endpoint is set and its last attempt succeeded |
| Diagnostic.ScriptUsesNormalisedEndpoint | main.py:19-30 | every attempt of the script goes to `https://` plus the normalised `AWS_S3_ENDPOINT` |
| Diagnostic.ScriptSummary | main.py:96-117 | after a completed run, the HTTP message appears exactly when three attempts were made. As written, the bundle message appears exactly when at least two attempts were made; corrected, exactly when two were made. The advice is last |
| Diagnostic.ScriptStepLines | main.py:79-117 | a completed run's log ends with the step loop's lines followed by the final messages; it holds each failing step's ERROR line with its action and exception text, each passing step's SUCCESS line, and a FILE line for every key a successful Step 5 listed |
| Diagnostic.ScriptRunsEveryStep | main.py:79-93 | a completed run has run all four steps |
| EnvConfig.Missing | 0_verify_s3.py:17 | the missing list holds exactly the required names absent from the environment |
| EnvConfig.MissingInOrder | 0_verify_s3.py:17 | the missing names keep their declaration order |
| EnvConfig.BuildConfig | 0_verify_s3.py:21-22 | every lower-cased required name is a key of the configuration; `ConfigShape` gives the exact dictionary |
| EnvConfig.GetAwsConfig | 0_verify_s3.py:8-23 | a configuration exists exactly when every required name is set, and it then has the endpoint and bucket keys |
| EnvConfig.MissingReported | 0_verify_s3.py:17-20 | the exit happens exactly when some required name is absent, and it lists exactly the absent names, in order |
| EnvConfig.ConfigShape | 0_verify_s3.py:21-23 | the configuration maps each lower-cased required name to the environment's value, verbatim, and holds nothing else |
| EnvConfig.ConfigSize | 0_verify_s3.py:21-23 | the five lower-cased names are distinct, so the configuration has exactly five entries |
| ClientModes.ResolveMode | 0_verify_s3.py:29-57 | only `http_connection` turns verification off, and only it rewrites the endpoint, then only a leading `https://`. `tls_custom_bundle` uses the bundle when it is set and non-empty, else the default trust store. Every other mode uses the default trust store |
| ClientModes.BundleIgnoredOutsideCustomMode | 0_verify_s3.py:30-53 | outside `tls_custom_bundle` the result does not depend on `AWS_CA_BUNDLE` |
| ClientModes.UnknownModeIsDefault | 0_verify_s3.py:49-53 | an unrecognised mode behaves exactly like `tls_default` |
| ClientModes.HttpRewritesOnlyLeadingScheme | 0_verify_s3.py:56-57 | in `http_connection` mode an endpoint `https://` + rest becomes `http://` + rest, for every rest, so a later `https://` inside it is kept |
| ClientModes.CreateS3Client | 0_verify_s3.py:25-72 | a client with the resolved settings when the constructor succeeds; exit status 1 exactly on an SDK exception; any other exception propagates |
| ObjectTasks.FileName | 0_verify_s3.py:75 | the derived file name contains no `/` |
| ObjectTasks.FileKey | 0_verify_s3.py:75-76 | the key starts with the folder, ends in `.txt` and adds no `/` after the folder |
| ObjectTasks.ScenarioFileKey | 0_verify_s3.py:75-76 | for every scenario folder `test/<mode>/` with a non-empty mode without `/`, the file key is `test/<mode>/file_test_<mode>.txt` |
| ObjectTasks.FileKeyInjective | 0_verify_s3.py:75-76 | two folders ending in `/` with the same file key are equal |
| ObjectTasks.PerformTasks | 0_verify_s3.py:74-94 | returns the file key exactly when all three calls succeed and the download equals the upload. A differing download is a distinct mismatch error. A failed call re-raises its own exception: the folder put's, else the upload's, else the download's. Only the folder marker (empty) and the file (the content) are written, and nothing is removed |
| ObjectTasks.RoundTrip | 0_verify_s3.py:81-89 | a bucket that returns the bytes it stored makes the round trip succeed |
| ObjectTasks.Flatten | 0_verify_s3.py:100 | a key is listed exactly when some page holds it |
| ObjectTasks.ListAllFiles | 0_verify_s3.py:96-103 | the keys of all pages; an SDK error gives the empty list; any other exception propagates |
| ObjectTasks.ListingShowsTaskKeys | 0_verify_s3.py:74-103 | after a successful round trip, a listing that reflects the bucket shows both the folder marker and the file |
| ObjectTasks.Cleanup | 0_verify_s3.py:105-111 | without a foreign exception every key is attempted: exactly the successfully deleted keys leave the bucket, and refused ones are reported. A foreign exception ends the loop. Keys not listed are never removed |
| ObjectTasks.Processed | 0_verify_s3.py:106-111 | the number of keys handled before the first foreign exception: none of them raises one, and the next key, if any, does |
| ObjectTasks.CleanupStopsAtAbort | 0_verify_s3.py:106-111 | with a foreign exception, the loop propagates the first one raised; exactly the keys before it were attempted, deleted or reported, and only those deleted left the bucket |
| VerifyRun.RunScenario | 0_verify_s3.py:133-140 | one scenario keeps the earlier `created_keys` as a prefix, adds none or two, and removes no key from the bucket; `ScenarioBookkeeping`, `ScenarioStore` and `ScenarioAdds` state which |
| VerifyRun.RunScenarios | 0_verify_s3.py:131-140 | the loop adds at most two keys per scenario; the `ScenarioLoop` lemmas state which |
| VerifyRun.RunWithConfig | 0_verify_s3.py:115-158 | with a configuration the run never reports missing variables, and a cleanup happens only in a run that reaches the end |
| VerifyRun.VerifyS3 | 0_verify_s3.py:113-158 | the run stops on missing variables exactly when some required name is absent, and then the bucket is unchanged and nothing is created |
| VerifyRun.ScenarioBookkeeping | 0_verify_s3.py:132-140 | `created_keys` grows by exactly `[folder, file_key]` for a successful scenario and by nothing for a failed one; the run ends exactly on a `SystemExit` |
| VerifyRun.ScenarioStore | 0_verify_s3.py:135-137 | a scenario only adds keys, and only its folder and file key change |
| VerifyRun.ScenarioLoopExit | 0_verify_s3.py:132-140 | the loop ends the process exactly when some scenario's client constructor raises an SDK exception |
| VerifyRun.ScenarioAdds | 0_verify_s3.py:134-138 | a scenario adds to `created_keys` only its own folder and file key, only when it succeeds, and both are then in the bucket |
| VerifyRun.ScenarioLoopCreated | 0_verify_s3.py:131-140 | without a `SystemExit`, `created_keys` after the loop is the successful scenarios' keys, in scenario order |
| VerifyRun.ScenarioLoopGrows | 0_verify_s3.py:131-140 | the bucket only gains keys over the scenario loop |
| VerifyRun.ScenarioLoopCreatedStored | 0_verify_s3.py:131-140 | every key in `created_keys` is in the bucket after the loop |
| VerifyRun.ScenarioLoopCreatedBy | 0_verify_s3.py:131-140 | every key in `created_keys` is the folder or file key of a scenario that succeeded |
| VerifyRun.ScenarioLoopKeeps | 0_verify_s3.py:131-140 | objects that no scenario touches keep their contents over the loop |
| VerifyRun.ScenarioLoopStore | 0_verify_s3.py:131-140 | every created key is in the bucket and belongs to a successful scenario; the bucket only gains keys; objects the scenarios do not touch are unchanged |
| VerifyRun.ScenarioExitSkipsCleanup | 0_verify_s3.py:132-156 | a `SystemExit` in the loop means no listing, no cleanup and no deletion |
| VerifyRun.CreatedKeys | 0_verify_s3.py:116-140 | `created_keys` is the scenarios' `[folder, file_key]` pairs, in scenario order, for exactly the successful ones |
| VerifyRun.CleanupOutcome | 0_verify_s3.py:151-156 | after cleanup, a created key remains exactly when its deletion failed; objects no scenario touched keep their contents |
| VerifyRun.NothingCreatedSurvives | 0_verify_s3.py:151-156 | when every deletion succeeds, no created key remains |
| VerifyRun.ListingShowsCreated | 0_verify_s3.py:142-149 | a listing that reflects the bucket shows every created key |
| VerifyRun.MissingVariablesStop | 0_verify_s3.py:113-114 | the run exits exactly when a required variable is missing, reporting exactly the missing names, with no S3 call and no change to the bucket |
| VerifyRun.CleanupSparesUncreated | 0_verify_s3.py:142-156 | listing and cleanup never remove a key that is not in `created_keys` |
| VerifyRun.FailedScenarioLeavesFolder | 0_verify_s3.py:134-140 | a scenario whose folder marker was created but whose upload failed leaves that marker in the bucket, even after cleanup |

## Left out

- Printing: runs are described by their log lines, or not at all in `0_verify_s3.py`, whose `print` calls only report progress.
- The S3 SDK: each call is an abstract reply. Exception messages and the pagination mechanism are left out; a listing is given as its pages.
- The OpenSSL subprocess (main.py:33-40): it becomes an `Extraction` outcome, and the certificate file it writes is left out.
- The `list_buckets` network check and TLS validation: each fallback stage is one server answer (`Ok`, `SslFail`, `OtherFail`). A missing credential variable in `connect_to_s3` raises `KeyError`; it is covered by `OtherFail`.
- The steps' SDK calls in main.py:79-84 are abstract replies. Reusing the consumed `BytesIO` stream across steps is not modelled.
- The bucket name: the model has a single bucket.
- Text.Lower: ASCII only. Python's `lower` is Unicode-aware, but it is applied only to the five fixed ASCII names.
- Text.ReplaceAll: requires a non-empty pattern. Python's empty-pattern behaviour is not modelled, because the scripts replace only fixed non-empty strings.
- Text.ReplaceFirst: requires a non-empty pattern, as does `Text.FirstOccurrence`. Python's `s.replace("", r, 1)` gives `r + s`; it is not modelled, because only the literal `https://` is passed.
- Common.Latin1: reduces codes above 255 modulo 256 so that the function is total. A bytes literal cannot hold such characters, and the scripts' literals are ASCII.
- A client constructor whose outcome changes between calls: the SDK constructor is a function of the client settings, so the listing and cleanup constructions (0_verify_s3.py:144 and 153) give the same outcome as the `tls_default` scenario's. Their exit branches are kept in the model but can only be reached in a run the scenario loop has already ended.
- The text of an `SSLError` after its class name in the fallback's ERROR line (main.py:72): a non-SSL failure carries its text, but an SSL failure of the third attempt is logged only by its class name.
- VerifyRun.RunScenarios: does not state that the number of created keys is even; `ScenarioLoopCreated` gives the exact list.
- EnvConfig.BuildConfig: states only that every lower-cased name is a key; `ConfigShape` gives the exact dictionary for the required names.
- Fallback.Connect: consumes at most three server answers; extra answers are ignored, because the block never makes a fourth attempt.

## Findings

| source | as written | input that shows it | evidently intended | confidence | as-written member | corrected member |
|---|---|---|---|---|---|---|
| main.py:60-69 | `perform_ssl_check` sets `AWS_CA_BUNDLE=storage.crt`, so `connect_to_s3(verify_ssl=False)` on the third attempt still verifies against `storage.crt` | server answers: SSL failure, SSL failure, then the third attempt | the third attempt skips certificate verification, as its log line "Retrying connection without SSL verification" says | high, not executed | Fallback.ThirdAttemptKeepsBundle | Fallback.ThirdAttemptUnverified |
| main.py:59-66 | `cert_bundle_used = True` is set before the bundle retry, so the summary claims success with the custom CA bundle even when that retry failed | server answers: SSL failure, SSL failure, success; both the HTTP message and the bundle message are printed | set the flag only once the bundle connection succeeds | high, not executed | Fallback.BundleFlagWithoutBundleSuccess | Fallback.CorrectedFlagsExclusive |

=== FILE: client_modes.dfy ===
/**
 `create_s3_client` of the S3 verification script (0_verify_s3.py:25-72): a
 connection mode selects the endpoint scheme, the certificate check and a
 description; a failure of the SDK while constructing the client ends the
 process with status 1.
 */
module ClientModes {
  import opened Common
  import opened Text
  import opened EnvConfig

  const TlsDefault: string := "tls_default"
  const TlsCustomBundle: string := "tls_custom_bundle"
  const HttpConnection: string := "http_connection"

  const DefaultDescription: string := "HTTPS with default SSL"
  const BundleDescription: string := "HTTPS with custom CA bundle"
  const NoBundleDescription: string := "HTTPS with default SSL (no custom bundle found)"
  const HttpDescription: string := "HTTP with no SSL/TLS"

  /** The arguments the client is constructed with, and the description printed. */
  datatype ClientSpec = ClientSpec(endpoint: string, verify: Verify, description: string)

  /** The settings of a connection mode. `bundle` is `AWS_CA_BUNDLE`. Only
      `http_connection` drops certificate checking, and only it rewrites the
      endpoint, and then only a leading `https://`; only `tls_custom_bundle`
      looks at the bundle; any other mode string behaves as `tls_default`. */
  function ResolveMode(mode: string, endpoint: string, bundle: Option<string>): (r: ClientSpec)
    ensures r.verify == Unverified <==> mode == HttpConnection
    ensures mode == HttpConnection ==> r.description == HttpDescription
    ensures mode == HttpConnection && StartsWith(endpoint, HttpsScheme) ==>
      r.endpoint == HttpScheme + endpoint[|HttpsScheme|..]
    ensures mode != HttpConnection || !StartsWith(endpoint, HttpsScheme) ==> r.endpoint == endpoint
    ensures mode == TlsCustomBundle && IsSet(bundle) ==>
      r.verify == CaBundle(bundle.value) && r.description == BundleDescription
    ensures mode == TlsCustomBundle && !IsSet(bundle) ==>
      r.verify == Verified && r.description == NoBundleDescription
    ensures mode != TlsCustomBundle && mode != HttpConnection ==>
      r.verify == Verified && r.description == DefaultDescription
  {
    var useHttp := mode == HttpConnection;
    var verify :=
      if mode == TlsCustomBundle then (if IsSet(bundle) then CaBundle(bundle.value) else Verified)
      else if useHttp then Unverified
      else Verified;
    var description :=
      if mode == TlsDefault then DefaultDescription
      else if mode == TlsCustomBundle then (if IsSet(bundle) then BundleDescription else NoBundleDescription)
      else if useHttp then HttpDescription
      else DefaultDescription;
    var url := if useHttp && StartsWith(endpoint, HttpsScheme) then ReplaceFirst(endpoint, HttpsScheme, HttpScheme) else endpoint;
    ClientSpec(url, verify, description)
  }

  /** The CA bundle variable matters to `tls_custom_bundle` alone. */
  lemma BundleIgnoredOutsideCustomMode(mode: string, endpoint: string, b1: Option<string>, b2: Option<string>)
    requires mode != TlsCustomBundle
    ensures ResolveMode(mode, endpoint, b1) == ResolveMode(mode, endpoint, b2)
  {
  }

  /** An unrecognised mode string falls back to `tls_default`. */
  lemma UnknownModeIsDefault(mode: string, endpoint: string, bundle: Option<string>)
    requires mode != TlsDefault && mode != TlsCustomBundle && mode != HttpConnection
    ensures ResolveMode(mode, endpoint, bundle) == ResolveMode(TlsDefault, endpoint, bundle)
  {
  }

  /** Only the leading `https://` is rewritten: whatever follows it, a later
      `https://` included, survives unchanged. */
  lemma HttpRewritesOnlyLeadingScheme(rest: string, bundle: Option<string>)
    ensures ResolveMode(HttpConnection, HttpsScheme + rest, bundle).endpoint == HttpScheme + rest
  {
    var e := HttpsScheme + rest;
    assert StartsWith(e, HttpsScheme);
    assert e[|HttpsScheme|..] == rest;
  }

  /** The outcome of constructing the SDK client with given settings. */
  datatype ClientBuild = Built | BuildRaised(error: Exception)

  /** What `create_s3_client` hands back: a client, a `SystemExit(1)`, or an
      exception the function itself does not catch. */
  datatype ClientResult = Client(spec: ClientSpec) | Exit(code: int) | ClientRaised(error: Exception)

  /** `create_s3_client(config, mode)`; `build` stands for the SDK's constructor. */
  function CreateS3Client(config: Config, mode: string, env: Env, build: ClientSpec -> ClientBuild): (r: ClientResult)
    requires EndpointKey in config
    ensures var spec := ResolveMode(mode, config[EndpointKey], Lookup(env, CaBundleVar));
      && (r.Client? <==> build(spec) == Built)
      && (r.Client? ==> r.spec == spec)
      && (r.Exit? <==> build(spec).BuildRaised? && build(spec).error.SdkException?)
      && (r.Exit? ==> r.code == 1)
      && (r.ClientRaised? ==> r.error == build(spec).error && r.error.OtherException?)
  {
    var spec := ResolveMode(mode, config[EndpointKey], Lookup(env, CaBundleVar));
    match build(spec)
    case Built => Client(spec)
    case BuildRaised(SdkException(_)) => Exit(1)
    case BuildRaised(e) => ClientRaised(e)
  }
}

=== FILE: common.dfy ===
/**
 Shared vocabulary of the two S3 diagnostic scripts: optional values, results
 carrying an error, bytes, the process environment, and the `verify` setting
 handed to the S3 client.
 */
module Common {

  /** Python's `None` or a value. */
  datatype Option<+T> = None | Some(value: T)

  /** A value, or the exception that escaped instead. */
  datatype Result<+R, +E> = Success(value: R) | Failure(error: E)

  newtype byte = x: int | 0 <= x < 256

  type Bytes = seq<byte>

  /** The variable naming a CA bundle file, read by both scripts. */
  const CaBundleVar: string := "AWS_CA_BUNDLE"

  /** The two URL schemes the scripts add, strip or rewrite. */
  const HttpsScheme: string := "https://"
  const HttpScheme: string := "http://"

  /** The process environment (`os.environ`) as an explicit value. */
  type Env = map<string, string>

  /** `os.environ.get(name)`. */
  function Lookup(env: Env, name: string): Option<string>
  {
    if name in env then Some(env[name]) else None
  }

  /** Python truthiness of an optional string: set and non-empty. */
  predicate IsSet(v: Option<string>)
  {
    v.Some? && v.value != ""
  }

  /** An exception raised by the S3 SDK (`BotoCoreError`, `ClientError` and
      their subclasses such as `SSLError`) or by anything else. The scripts
      catch the two kinds differently. */
  datatype Exception = SdkException(message: string) | OtherException(message: string)

  /** The `verify` argument of the S3 client: the system trust store,
      no certificate check at all, or a path to a CA bundle file. */
  datatype Verify = Verified | Unverified | CaBundle(path: string)

  /** Encodes a string as bytes the way a `b"..."` literal of 8-bit
      characters is: each character becomes its code. The scripts' literals
      are ASCII; a code beyond 255 (which a bytes literal cannot hold) is
      reduced modulo 256 so that the function is total. */
  function Latin1(s: string): (r: Bytes)
    ensures |r| == |s|
    ensures forall i :: 0 <= i < |s| && s[i] as int < 256 ==> r[i] as int == s[i] as int
  {
    seq(|s|, i requires 0 <= i < |s| => (s[i] as int % 256) as byte)
  }
}

=== FILE: diagnostic.dfy ===
/**
 The TLS diagnostic script as a whole (main.py:43-117): endpoint
 normalisation, the connection fallback, four S3 steps that each may fail
 without stopping the others, and the closing summary chosen by the two
 fallback flags.
 */
module Diagnostic {
  import opened Common
  import opened Text
  import opened Log
  import opened Endpoint
  import opened Fallback

  // ---------------------------------------------------------------------------
  // Steps 2 to 5

  /** What one step's SDK call did: its result (for the listing, the keys under
      `Contents`, empty when absent) or the exception it raised. */
  datatype StepReply = StepOk(keys: seq<string>) | StepFailed(error: string)

  datatype StepTask = StepTask(step: string, action: string)

  const ListingStep: string := "Step 5"

  const Steps: seq<StepTask> := [
    StepTask("Step 2", "Uploading file..."),
    StepTask("Step 3", "Downloading file..."),
    StepTask("Step 4", "Creating folder..."),
    StepTask(ListingStep, "Listing files...")
  ]

  const CompletedSuffix: string := " completed successfully."
  const FailedSuffix: string := " failed: "

  function FileLines(step: string, keys: seq<string>): (r: seq<LogLine>)
    ensures |r| == |keys|
    ensures forall i :: 0 <= i < |r| ==> r[i] == LogLine(step, File, keys[i])
  {
    seq(|keys|, i requires 0 <= i < |keys| => LogLine(step, File, keys[i]))
  }

  /** The lines one step prints. */
  function StepLog(t: StepTask, reply: StepReply): seq<LogLine>
  {
    [LogLine(t.step, Info, t.action)] +
    match reply
    case StepOk(keys) =>
      (if t.step == ListingStep then FileLines(t.step, keys) else []) +
      [LogLine(t.step, Succeeded, t.action + CompletedSuffix)]
    case StepFailed(e) =>
      [LogLine(t.step, Error, t.action + FailedSuffix + e)]
  }

  /** How many of the steps fail. */
  function Failures(tasks: seq<StepTask>, reply: string -> StepReply): nat
  {
    if tasks == [] then 0
    else Failures(tasks[..|tasks| - 1], reply) + (if reply(tasks[|tasks| - 1].step).StepFailed? then 1 else 0)
  }

  lemma {:induction false} FileLinesCount(step: string, keys: seq<string>, st: Status)
    requires st != File
    ensures CountStatus(FileLines(step, keys), st) == 0
    decreases |keys|
  {
    if keys != [] {
      var r := FileLines(step, keys);
      assert r[..|r| - 1] == FileLines(step, keys[..|keys| - 1]);
      FileLinesCount(step, keys[..|keys| - 1], st);
    }
  }

  lemma StepLogCounts(t: StepTask, reply: StepReply)
    ensures CountStatus(StepLog(t, reply), Info) == 1
    ensures CountStatus(StepLog(t, reply), Error) == (if reply.StepFailed? then 1 else 0)
    ensures CountStatus(StepLog(t, reply), Succeeded) == (if reply.StepFailed? then 0 else 1)
  {
    var head := [LogLine(t.step, Info, t.action)];
    assert CountStatus(head, Info) == 1 by { assert head[..0] == []; }
    assert CountStatus(head, Error) == 0 by { assert head[..0] == []; }
    assert CountStatus(head, Succeeded) == 0 by { assert head[..0] == []; }
    match reply
    case StepOk(keys) =>
      var files := if t.step == ListingStep then FileLines(t.step, keys) else [];
      var last := [LogLine(t.step, Succeeded, t.action + CompletedSuffix)];
      FileLinesCount(t.step, keys, Info);
      FileLinesCount(t.step, keys, Error);
      FileLinesCount(t.step, keys, Succeeded);
      assert last[..0] == [];
      CountStatusAppend(files, last, Info);
      CountStatusAppend(files, last, Error);
      CountStatusAppend(files, last, Succeeded);
      CountStatusAppend(head, files + last, Info);
      CountStatusAppend(head, files + last, Error);
      CountStatusAppend(head, files + last, Succeeded);
    case StepFailed(e) =>
      var last := [LogLine(t.step, Error, t.action + FailedSuffix + e)];
      assert last[..0] == [];
      CountStatusAppend(head, last, Info);
      CountStatusAppend(head, last, Error);
      CountStatusAppend(head, last, Succeeded);
  }

  /** The step loop: every step runs and prints its lines, whatever the
      earlier ones did, so each step contributes at least its INFO line and a
      closing line. */
  function RunSteps(tasks: seq<StepTask>, reply: string -> StepReply): (r: seq<LogLine>)
    ensures |r| >= 2 * |tasks|
  {
    if tasks == [] then []
    else RunSteps(tasks[..|tasks| - 1], reply) + StepLog(tasks[|tasks| - 1], reply(tasks[|tasks| - 1].step))
  }

  /** Every step announces itself and ends in exactly one SUCCESS or ERROR
      line, so a failure never stops the later steps; there are as many ERROR
      lines as failing steps; only the listing step prints FILE lines. */
  lemma {:induction false} StepLoop(tasks: seq<StepTask>, reply: string -> StepReply)
    ensures var log := RunSteps(tasks, reply);
      && (forall i :: 0 <= i < |tasks| ==> LogLine(tasks[i].step, Info, tasks[i].action) in log)
      && (forall l :: l in log && l.status == File ==> l.step == ListingStep)
      && CountStatus(log, Info) == |tasks|
      && CountStatus(log, Error) == Failures(tasks, reply)
      && CountStatus(log, Succeeded) == |tasks| - Failures(tasks, reply)
    decreases |tasks|
  {
    if tasks != [] {
      var init := tasks[..|tasks| - 1];
      var t := tasks[|tasks| - 1];
      var prefix := RunSteps(init, reply);
      var last := StepLog(t, reply(t.step));
      assert RunSteps(tasks, reply) == prefix + last;
      StepLoop(init, reply);
      forall i | 0 <= i < |tasks| ensures LogLine(tasks[i].step, Info, tasks[i].action) in prefix + last {
        if i < |tasks| - 1 {
          assert tasks[i] == init[i];
        } else {
          assert LogLine(t.step, Info, t.action) == last[0];
        }
      }
      StepLogCounts(t, reply(t.step));
      CountStatusAppend(prefix, last, Info);
      CountStatusAppend(prefix, last, Error);
      CountStatusAppend(prefix, last, Succeeded);
    }
  }

  /** The lines of one step: a failing step's ERROR line carries its action
      and the exception text, a passing step's SUCCESS line its action, and
      the listing step prints a FILE line for every key; no other ERROR,
      SUCCESS or FILE line appears. */
  lemma StepLogLines(t: StepTask, reply: StepReply)
    ensures var log := StepLog(t, reply);
      && (reply.StepFailed? ==> LogLine(t.step, Error, t.action + FailedSuffix + reply.error) in log)
      && (reply.StepOk? ==> LogLine(t.step, Succeeded, t.action + CompletedSuffix) in log)
      && (t.step == ListingStep && reply.StepOk? ==>
            forall k :: k in reply.keys ==> LogLine(ListingStep, File, k) in log)
      && (forall l :: l in log && l.status == Error ==>
            reply.StepFailed? && l == LogLine(t.step, Error, t.action + FailedSuffix + reply.error))
      && (forall l :: l in log && l.status == Succeeded ==>
            reply.StepOk? && l == LogLine(t.step, Succeeded, t.action + CompletedSuffix))
      && (forall l :: l in log && l.status == File ==>
            reply.StepOk? && t.step == ListingStep && l.step == ListingStep && l.message in reply.keys)
  {
    match reply
    case StepOk(keys) =>
      if t.step == ListingStep {
        var files := FileLines(t.step, keys);
        forall k | k in keys ensures LogLine(ListingStep, File, k) in files {
          var j :| 0 <= j < |keys| && keys[j] == k;
          assert files[j] == LogLine(ListingStep, File, k);
        }
      }
    case StepFailed(e) =>
  }

  /** Every step of the loop prints its own closing line: ERROR with the
      action and the exception text when its call failed, SUCCESS otherwise;
      a successful listing step prints a FILE line for every listed key. */
  lemma {:induction false} StepLinesPresent(tasks: seq<StepTask>, reply: string -> StepReply)
    ensures var log := RunSteps(tasks, reply);
      && (forall i :: 0 <= i < |tasks| && reply(tasks[i].step).StepFailed? ==>
            LogLine(tasks[i].step, Error, tasks[i].action + FailedSuffix + reply(tasks[i].step).error) in log)
      && (forall i :: 0 <= i < |tasks| && reply(tasks[i].step).StepOk? ==>
            LogLine(tasks[i].step, Succeeded, tasks[i].action + CompletedSuffix) in log)
      && (forall i, k ::
            0 <= i < |tasks| && tasks[i].step == ListingStep && reply(ListingStep).StepOk? && k in reply(ListingStep).keys
            ==> LogLine(ListingStep, File, k) in log)
    decreases |tasks|
  {
    if tasks != [] {
      var init := tasks[..|tasks| - 1];
      var t := tasks[|tasks| - 1];
      var prefix := RunSteps(init, reply);
      var last := StepLog(t, reply(t.step));
      assert RunSteps(tasks, reply) == prefix + last;
      StepLinesPresent(init, reply);
      StepLogLines(t, reply(t.step));
      forall i | 0 <= i < |tasks| - 1 ensures tasks[i] == init[i] {
      }
    }
  }

  /** Conversely, every ERROR, SUCCESS and FILE line of the loop belongs to a
      step: an ERROR line is the closing line of a failing step, a SUCCESS
      line that of a passing step, and a FILE line names a key of a
      successful listing step. */
  lemma {:induction false} StepLinesOnly(tasks: seq<StepTask>, reply: string -> StepReply)
    ensures var log := RunSteps(tasks, reply);
      && (forall l :: l in log && l.status == Error ==>
            exists i :: (0 <= i < |tasks| && reply(tasks[i].step).StepFailed? &&
              l == LogLine(tasks[i].step, Error, tasks[i].action + FailedSuffix + reply(tasks[i].step).error)))
      && (forall l :: l in log && l.status == Succeeded ==>
            exists i :: (0 <= i < |tasks| && reply(tasks[i].step).StepOk? &&
              l == LogLine(tasks[i].step, Succeeded, tasks[i].action + CompletedSuffix)))
      && (forall l :: l in log && l.status == File ==>
            (exists i :: 0 <= i < |tasks| && tasks[i].step == ListingStep) &&
            reply(ListingStep).StepOk? && l.step == ListingStep && l.message in reply(ListingStep).keys)
    decreases |tasks|
  {
    if tasks != [] {
      var n := |tasks| - 1;
      var init := tasks[..n];
      var t := tasks[n];
      var prefix := RunSteps(init, reply);
      var last := StepLog(t, reply(t.step));
      assert RunSteps(tasks, reply) == prefix + last;
      StepLinesOnly(init, reply);
      StepLogLines(t, reply(t.step));
      forall l: LogLine | l in prefix + last
        ensures l.status == Error ==>
          exists i :: (0 <= i < |tasks| && reply(tasks[i].step).StepFailed? &&
            l == LogLine(tasks[i].step, Error, tasks[i].action + FailedSuffix + reply(tasks[i].step).error))
        ensures l.status == Succeeded ==>
          exists i :: (0 <= i < |tasks| && reply(tasks[i].step).StepOk? &&
            l == LogLine(tasks[i].step, Succeeded, tasks[i].action + CompletedSuffix))
        ensures l.status == File ==> exists i :: 0 <= i < |tasks| && tasks[i].step == ListingStep
      {
        if l in prefix {
          if l.status == Error {
            var i :| 0 <= i < |init| && reply(init[i].step).StepFailed? &&
              l == LogLine(init[i].step, Error, init[i].action + FailedSuffix + reply(init[i].step).error);
            assert tasks[i] == init[i];
          } else if l.status == Succeeded {
            var i :| 0 <= i < |init| && reply(init[i].step).StepOk? &&
              l == LogLine(init[i].step, Succeeded, init[i].action + CompletedSuffix);
            assert tasks[i] == init[i];
          } else if l.status == File {
            var i :| 0 <= i < |init| && init[i].step == ListingStep;
            assert tasks[i] == init[i];
          }
        } else {
          assert l in last && tasks[n] == t;
        }
      }
    }
  }

  // ---------------------------------------------------------------------------
  // Summary

  /** The three closing messages. */
  datatype FinalMessage = HttpFallbackMessage | BundleMessage | RemediationMessage

  /** What each closing message prints. */
  function MessageText(m: FinalMessage): string
  {
    match m
    case HttpFallbackMessage => "SSL connection failed. Connected using HTTP instead."
    case BundleMessage => "SSL connection succeeded using a custom CA bundle (storage.crt).\nRefer to AWS documentation for configuring CA bundles:\nhttps://docs.aws.amazon.com/cli/latest/userguide/cli-configure-files.html#cli-configure-files-settings"
    case RemediationMessage => "Consider the following actions:\n1. Provide a Custom CA Bundle. Learn more: https://docs.aws.amazon.com/cli/latest/userguide/cli-configure-files.html#cli-configure-files-settings\n2. Correct the Certificate Chain. Refer to Kubernetes/OpenShift documentation:\nhttps://kubernetes.io/docs/tasks/tls/managing-tls-in-a-cluster/\nhttps://docs.openshift.com/container-platform/4.17/security/certificates/updating-ca-bundle.html"
  }

  /** The closing messages: the HTTP-fallback message exactly when `ssl_failed`,
      then the bundle message exactly when `cert_bundle_used`, and always the
      remediation advice last. */
  function Summary(sslFailed: bool, certBundleUsed: bool): (r: seq<FinalMessage>)
    ensures |r| == 1 + (if sslFailed then 1 else 0) + (if certBundleUsed then 1 else 0)
    ensures r[|r| - 1] == RemediationMessage
    ensures HttpFallbackMessage in r <==> sslFailed
    ensures BundleMessage in r <==> certBundleUsed
    ensures sslFailed ==> r[0] == HttpFallbackMessage
    ensures certBundleUsed ==> r[|r| - 2] == BundleMessage
  {
    (if sslFailed then [HttpFallbackMessage] else [])
    + (if certBundleUsed then [BundleMessage] else [])
    + [RemediationMessage]
  }

  const FinalStep: string := "FINAL MESSAGE"

  function FinalLines(messages: seq<FinalMessage>): seq<LogLine>
  {
    seq(|messages|, i requires 0 <= i < |messages| => LogLine(FinalStep, Info, MessageText(messages[i])))
  }

  // ---------------------------------------------------------------------------
  // The whole script

  const EndpointVar: string := "AWS_S3_ENDPOINT"

  datatype ScriptEnd = Completed(finalMessages: seq<FinalMessage>) | Crashed(reason: string)

  datatype ScriptRun = ScriptRun(log: seq<LogLine>, attempts: seq<Attempt>, end: ScriptEnd)

  const ExtractionErrorName: string := "CalledProcessError"

  function RaiseName(e: Raise): string
  {
    match e
    case SslError => SslErrorName
    case OtherError(text) => text
    case ExtractionError => ExtractionErrorName
  }

  /** The fallback block with the server's answer to each of the three stages. */
  function FallbackBlock(endpoint: string, env: Env, server: Stage -> Outcome, x: Extraction, v: Variant): State
  {
    Connect(endpoint, env, [server(DefaultTls), server(BundleTls), server(NoVerify)], x, v)
  }

  /** The script, with the server's answer to each stage, the extraction's
      result and each step's SDK result as parameters. */
  function RunScript(env: Env, server: Stage -> Outcome, x: Extraction, reply: string -> StepReply, v: Variant): (r: ScriptRun)
    ensures |r.attempts| <= 3
    ensures r.end.Completed? ==>
      |r.end.finalMessages| >= 1 && r.end.finalMessages[|r.end.finalMessages| - 1] == RemediationMessage
  {
    var check := CheckEnvVar(env, EndpointVar);
    match check.value
    case Failure(e) => ScriptRun(check.log, [], Crashed(e))
    case Success(endpoint) =>
      var env' := env[EndpointVar := endpoint];
      var s := FallbackBlock(endpoint, env', server, x, v);
      if s.phase.Raised? then
        ScriptRun(check.log + s.log, s.attempts, Crashed(RaiseName(s.phase.error)))
      else
        var finals := Summary(s.sslFailed, s.certBundleUsed);
        ScriptRun(check.log + s.log + RunSteps(Steps, reply) + FinalLines(finals), s.attempts, Completed(finals))
  }

  /** The unset-variable line prints as `log_message` formats it. */
  lemma NotSetRendered(name: string)
    ensures Render(NotSetLine(name)) == "[ENV CHECK] [ERROR] " + "Environment variable '" + name + "' is not set."
  {
    var head := "[" + EnvCheckStep + "] [" + StatusName(Error) + "] ";
    assert head == "[ENV CHECK] [ERROR] ";
    Regroup4(head, NotSetPrefix, name, NotSetSuffix);
  }

  /** Without `AWS_S3_ENDPOINT` the script crashes before any connection attempt. */
  lemma ScriptWithoutEndpoint(env: Env, server: Stage -> Outcome, x: Extraction, reply: string -> StepReply, v: Variant)
    requires EndpointVar !in env
    ensures var r := RunScript(env, server, x, reply, v);
      r.end.Crashed? && r.attempts == [] && r.log == [NotSetLine(EndpointVar)]
  {
  }

  /** How a run with `AWS_S3_ENDPOINT` set is assembled from the fallback block. */
  lemma ScriptShape(env: Env, server: Stage -> Outcome, x: Extraction, reply: string -> StepReply, v: Variant)
    requires EndpointVar in env
    ensures var endpoint := Normalise(env[EndpointVar]);
      var s := FallbackBlock(endpoint, env[EndpointVar := endpoint], server, x, v);
      var r := RunScript(env, server, x, reply, v);
      && r.attempts == s.attempts
      && (r.end.Completed? <==> !s.phase.Raised?)
      && (r.end.Completed? ==> r.end.finalMessages == Summary(s.sslFailed, s.certBundleUsed))
  {
  }

  /** The script completes exactly when an attempt connected. */
  lemma ScriptCompletesIffConnected(env: Env, server: Stage -> Outcome, x: Extraction, reply: string -> StepReply, v: Variant)
    ensures var r := RunScript(env, server, x, reply, v);
      r.end.Completed? <==> EndpointVar in env && |r.attempts| >= 1 && r.attempts[|r.attempts| - 1].outcome == Ok
  {
    var r := RunScript(env, server, x, reply, v);
    if EndpointVar in env {
      var endpoint := Normalise(env[EndpointVar]);
      var env' := env[EndpointVar := endpoint];
      var outcomes := [server(DefaultTls), server(BundleTls), server(NoVerify)];
      ScriptShape(env, server, x, reply, v);
      DecidedFlags(endpoint, env', outcomes, x, v);
      var s := Connect(endpoint, env', outcomes, x, v);
      assert r.attempts == s.attempts && (r.end.Completed? <==> !s.phase.Raised?);
    } else {
      ScriptWithoutEndpoint(env, server, x, reply, v);
    }
  }

  /** Every attempt the script makes is HTTPS to the normalised endpoint. */
  lemma ScriptUsesNormalisedEndpoint(env: Env, server: Stage -> Outcome, x: Extraction, reply: string -> StepReply, v: Variant)
    requires EndpointVar in env
    ensures var r := RunScript(env, server, x, reply, v);
      forall i :: 0 <= i < |r.attempts| ==> r.attempts[i].conn.endpoint == HttpsScheme + Normalise(env[EndpointVar])
  {
    var endpoint := Normalise(env[EndpointVar]);
    ScriptShape(env, server, x, reply, v);
    FallbackOrder(endpoint, env[EndpointVar := endpoint], [server(DefaultTls), server(BundleTls), server(NoVerify)], x, v);
  }

  /** Once the script completes, its summary reflects the attempts: the HTTP
      message exactly when the third attempt was needed, and the bundle message,
      as written, whenever a second attempt was made, corrected, only when the
      second attempt is the one that connected. */
  lemma ScriptSummary(env: Env, server: Stage -> Outcome, x: Extraction, reply: string -> StepReply, v: Variant)
    ensures var r := RunScript(env, server, x, reply, v);
      r.end.Completed? ==>
        && r.end.finalMessages[|r.end.finalMessages| - 1] == RemediationMessage
        && (HttpFallbackMessage in r.end.finalMessages <==> |r.attempts| == 3)
        && (v.AsWritten? ==> (BundleMessage in r.end.finalMessages <==> |r.attempts| >= 2))
        && (v.Corrected? ==> (BundleMessage in r.end.finalMessages <==> |r.attempts| == 2))
  {
    if EndpointVar in env {
      var endpoint := Normalise(env[EndpointVar]);
      var env' := env[EndpointVar := endpoint];
      ScriptShape(env, server, x, reply, v);
      DecidedFlags(endpoint, env', [server(DefaultTls), server(BundleTls), server(NoVerify)], x, v);
    }
  }

  /** Once the script completes, all four steps have run. */
  lemma ScriptRunsEveryStep(env: Env, server: Stage -> Outcome, x: Extraction, reply: string -> StepReply, v: Variant)
    ensures var r := RunScript(env, server, x, reply, v);
      r.end.Completed? ==>
        forall i :: 0 <= i < |Steps| ==> LogLine(Steps[i].step, Info, Steps[i].action) in r.log
  {
    var r := RunScript(env, server, x, reply, v);
    if r.end.Completed? {
      var endpoint := Normalise(env[EndpointVar]);
      var check := CheckEnvVar(env, EndpointVar);
      var s := FallbackBlock(endpoint, env[EndpointVar := endpoint], server, x, v);
      var steps := RunSteps(Steps, reply);
      StepLoop(Steps, reply);
      assert r.log == (check.log + s.log) + steps + FinalLines(Summary(s.sslFailed, s.certBundleUsed));
      forall i | 0 <= i < |Steps| ensures LogLine(Steps[i].step, Info, Steps[i].action) in r.log {
        assert LogLine(Steps[i].step, Info, Steps[i].action) in steps;
      }
    }
  }

  /** Once the script completes, its log ends with the step loop's lines and
      then the final messages, so every step's outcome is visible in it: a
      failing step's ERROR line with its action and exception text, a passing
      step's SUCCESS line, and a FILE line for every key a successful Step 5
      listed. */
  lemma ScriptStepLines(env: Env, server: Stage -> Outcome, x: Extraction, reply: string -> StepReply, v: Variant)
    ensures var r := RunScript(env, server, x, reply, v);
      r.end.Completed? ==>
        var tail := RunSteps(Steps, reply) + FinalLines(r.end.finalMessages);
        && |tail| <= |r.log| && r.log[|r.log| - |tail|..] == tail
        && (forall i :: 0 <= i < |Steps| && reply(Steps[i].step).StepFailed? ==>
              LogLine(Steps[i].step, Error, Steps[i].action + FailedSuffix + reply(Steps[i].step).error) in r.log)
        && (forall i :: 0 <= i < |Steps| && reply(Steps[i].step).StepOk? ==>
              LogLine(Steps[i].step, Succeeded, Steps[i].action + CompletedSuffix) in r.log)
        && (reply(ListingStep).StepOk? ==>
              forall k :: k in reply(ListingStep).keys ==> LogLine(ListingStep, File, k) in r.log)
  {
    var r := RunScript(env, server, x, reply, v);
    if r.end.Completed? {
      var endpoint := Normalise(env[EndpointVar]);
      var check := CheckEnvVar(env, EndpointVar);
      var s := FallbackBlock(endpoint, env[EndpointVar := endpoint], server, x, v);
      var tail := RunSteps(Steps, reply) + FinalLines(r.end.finalMessages);
      var head := check.log + s.log;
      assert r.log == head + tail;
      assert r.log[|r.log| - |tail|..] == tail;
      StepLinesAfter(head, FinalLines(r.end.finalMessages), reply);
    }
  }

  /** The step loop's lines, wherever they sit in a longer log. */
  lemma StepLinesAfter(head: seq<LogLine>, finals: seq<LogLine>, reply: string -> StepReply)
    ensures var log := head + (RunSteps(Steps, reply) + finals);
      && (forall i :: 0 <= i < |Steps| && reply(Steps[i].step).StepFailed? ==>
            LogLine(Steps[i].step, Error, Steps[i].action + FailedSuffix + reply(Steps[i].step).error) in log)
      && (forall i :: 0 <= i < |Steps| && reply(Steps[i].step).StepOk? ==>
            LogLine(Steps[i].step, Succeeded, Steps[i].action + CompletedSuffix) in log)
      && (reply(ListingStep).StepOk? ==>
            forall k :: k in reply(ListingStep).keys ==> LogLine(ListingStep, File, k) in log)
  {
    var steps := RunSteps(Steps, reply);
    var log := head + (steps + finals);
    StepLinesPresent(Steps, reply);
    forall l | l in steps ensures l in log {
      var j :| 0 <= j < |steps| && steps[j] == l;
      assert log[|head| + j] == l;
    }
    assert Steps[3].step == ListingStep;
  }
}

=== FILE: endpoint.dfy ===
/**
 `check_env_var` of the TLS diagnostic script (main.py:8-12): it reads an
 environment variable and reduces it to `host:443`, dropping surrounding
 whitespace, any `https://` and `http://` and whatever followed the first `:`.
 */
module Endpoint {
  import opened Common
  import opened Text
  import opened Log

  /** The characters Python's `str.strip()` removes (those for which `str.isspace()` holds). */
  const Whitespace: set<char> := {
    '\t', '\n', '\U{000B}', '\U{000C}', '\r', '\U{001C}', '\U{001D}', '\U{001E}', '\U{001F}',
    ' ', '\U{0085}', '\U{00A0}', '\U{1680}', '\U{2000}', '\U{2001}', '\U{2002}', '\U{2003}',
    '\U{2004}', '\U{2005}', '\U{2006}', '\U{2007}', '\U{2008}', '\U{2009}', '\U{200A}',
    '\U{2028}', '\U{2029}', '\U{202F}', '\U{205F}', '\U{3000}'
  }

  const TlsPort: string := ":443"

  /** Python's `s.replace("https://", "").replace("http://", "")`. */
  function DropSchemes(s: string): string
  {
    ReplaceAll(ReplaceAll(s, HttpsScheme, ""), HttpScheme, "")
  }

  /** The host part: stripped, without schemes, cut at the first `:`. */
  function HostOf(raw: string): string
  {
    PrefixBefore(DropSchemes(Trim(raw, Whitespace)), ':')
  }

  /** The normalised endpoint: host only, then `:443`, with no `:` before the port. */
  function Normalise(raw: string): (r: string)
    ensures EndsWith(r, TlsPort)
    ensures ':' !in r[..|r| - |TlsPort|]
  {
    HostOf(raw) + TlsPort
  }

  /** The normalised endpoint holds exactly one `:`, the one of the appended port. */
  lemma NormaliseOneColon(raw: string)
    ensures multiset(Normalise(raw))[':'] == 1
  {
    var host := HostOf(raw);
    assert host == Normalise(raw)[..|Normalise(raw)| - |TlsPort|];
    assert multiset(host)[':'] == 0;
    assert multiset(TlsPort)[':'] == 1;
    assert Normalise(raw) == host + TlsPort;
  }

  /** A bare host name: no `:`, no `/`, no whitespace. */
  predicate PlainHost(h: string)
  {
    forall i :: 0 <= i < |h| ==> h[i] != ':' && h[i] != '/' && h[i] !in Whitespace
  }

  /** Empty, or `:` followed by decimal digits. */
  predicate PortSuffix(p: string)
  {
    p == [] || (p[0] == ':' && forall i :: 1 <= i < |p| ==> '0' <= p[i] <= '9')
  }

  predicate KnownScheme(scheme: string)
  {
    scheme == "" || scheme == HttpsScheme || scheme == HttpScheme
  }

  lemma PlainHostPortHasNoSlash(host: string, port: string)
    requires PlainHost(host) && PortSuffix(port)
    ensures '/' !in host + port
  {
    var rest := host + port;
    forall i | 0 <= i < |rest| ensures rest[i] != '/' {
      if i < |host| { assert rest[i] == host[i]; } else { assert rest[i] == port[i - |host|]; }
    }
  }

  lemma DropSchemesOfScheme(scheme: string, rest: string)
    requires KnownScheme(scheme) && '/' !in rest
    ensures DropSchemes(scheme + rest) == rest
  {
    var s := scheme + rest;
    ReplaceAllMissingChar(rest, HttpsScheme, "", '/');
    ReplaceAllMissingChar(rest, HttpScheme, "", '/');
    if scheme == HttpsScheme {
      assert StartsWith(s, HttpsScheme) && s[|HttpsScheme|..] == rest;
      var a := ReplaceAll(s, HttpsScheme, "");
      assert a == "" + ReplaceAll(rest, HttpsScheme, "");
      assert a == rest;
      assert DropSchemes(s) == ReplaceAll(a, HttpScheme, "");
    } else if scheme == HttpScheme {
      forall i | 0 <= i <= |s| - |HttpsScheme|
        ensures !OccursAt(s, HttpsScheme, i)
      {
        assert s[i..i + |HttpsScheme|][7] == s[i + 7];
        assert s[i + 7] == rest[i] != '/';
      }
      ReplaceAllNoMatch(s, HttpsScheme, "");
      assert StartsWith(s, HttpScheme) && s[|HttpScheme|..] == rest;
      assert ReplaceAll(s, HttpScheme, "") == "" + ReplaceAll(rest, HttpScheme, "");
    } else {
      assert s == rest;
    }
  }

  /** A known scheme, a plain host and a port suffix neither start nor end
      with whitespace. */
  lemma SchemeHostPortEnds(scheme: string, host: string, port: string)
    requires KnownScheme(scheme) && PlainHost(host) && PortSuffix(port)
    ensures var s := scheme + host + port;
      s == [] || (s[0] !in Whitespace && s[|s| - 1] !in Whitespace)
  {
    var s := scheme + host + port;
    if s != [] {
      if scheme != "" {
        assert s[0] == 'h';
      } else if host != [] {
        assert s[0] == host[0];
      } else {
        assert s[0] == ':';
      }
      if port != [] {
        assert s[|s| - 1] == port[|port| - 1];
        assert s[|s| - 1] == ':' || '0' <= s[|s| - 1] <= '9';
      } else if host != [] {
        assert s[|s| - 1] == host[|host| - 1];
      } else {
        assert s[|s| - 1] == '/';
      }
    }
  }

  /** Whatever whitespace pads it and whatever scheme and port surround a
      plain host, normalisation keeps the host and replaces the port by 443. */
  lemma NormaliseKeepsHost(w1: string, scheme: string, host: string, port: string, w2: string)
    requires forall c :: c in w1 + w2 ==> c in Whitespace
    requires KnownScheme(scheme) && PlainHost(host) && PortSuffix(port)
    ensures Normalise(w1 + scheme + host + port + w2) == host + TlsPort
  {
    HostOfSchemeHostPort(w1, scheme, host, port, w2);
  }

  lemma HostOfSchemeHostPort(w1: string, scheme: string, host: string, port: string, w2: string)
    requires forall c :: c in w1 + w2 ==> c in Whitespace
    requires KnownScheme(scheme) && PlainHost(host) && PortSuffix(port)
    ensures HostOf(w1 + scheme + host + port + w2) == host
  {
    var rest := host + port;
    var s := scheme + host + port;
    assert s == scheme + rest;
    assert w1 + scheme + host + port + w2 == w1 + s + w2;
    SchemeHostPortEnds(scheme, host, port);
    TrimPad(w1, s, w2, Whitespace);
    PlainHostPortHasNoSlash(host, port);
    DropSchemesOfScheme(scheme, rest);
    PrefixBeforeUnique(rest, ':', host);
  }

  /** The example of the script's use: a URL with a port becomes `host:443`. */
  lemma NormaliseExample()
    ensures Normalise("https://s3.example:9000") == "s3.example:443"
  {
    var host, port := "s3.example", ":9000";
    assert PlainHost(host) && PortSuffix(port);
    assert "https://s3.example:9000" == "" + HttpsScheme + host + port + "";
    assert "s3.example:443" == host + TlsPort;
    NormaliseKeepsHost("", HttpsScheme, host, port, "");
  }

  /** What `check_env_var` produced: the lines it logged and its return value,
      or the exception it raised. */
  datatype EnvCheck = EnvCheck(log: seq<LogLine>, value: Result<string, string>)

  /** The `AttributeError` raised by `None.strip()`. */
  const NoneStrip: string := "AttributeError: 'NoneType' object has no attribute 'strip'"

  const EnvCheckStep: string := "ENV CHECK"
  const NotSetPrefix: string := "Environment variable '"
  const NotSetSuffix: string := "' is not set."

  function NotSetLine(name: string): LogLine
  {
    LogLine(EnvCheckStep, Error, NotSetPrefix + name + NotSetSuffix)
  }

  /** A missing or empty variable is reported as an ERROR line but never
      rejected: empty yields `:443`, unset crashes on `None.strip()`. A set,
      non-empty value is normalised silently. */
  function CheckEnvVar(env: Env, name: string): (r: EnvCheck)
    ensures name !in env ==> r == EnvCheck([NotSetLine(name)], Failure(NoneStrip))
    ensures name in env ==> r.value == Success(Normalise(env[name]))
    ensures name in env && env[name] == "" ==> r == EnvCheck([NotSetLine(name)], Success(TlsPort))
    ensures name in env && env[name] != "" ==> r.log == []
  {
    var value := Lookup(env, name);
    var log := if IsSet(value) then [] else [NotSetLine(name)];
    match value
    case None => EnvCheck(log, Failure(NoneStrip))
    case Some(v) => EnvCheck(log, Success(Normalise(v)))
  }
}

=== FILE: envconfig.dfy ===
/**
 `get_aws_config` of the S3 verification script (0_verify_s3.py:8-23): the
 five required variables must all be present, otherwise the script lists the
 missing ones and exits; the configuration keys are the lower-cased names.
 */
module EnvConfig {
  import opened Common
  import opened Text

  const RequiredVars: seq<string> := [
    "AWS_ACCESS_KEY_ID",
    "AWS_SECRET_ACCESS_KEY",
    "AWS_DEFAULT_REGION",
    "AWS_S3_ENDPOINT",
    "AWS_S3_BUCKET"
  ]

  /** The configuration dictionary. */
  type Config = map<string, string>

  // The configuration keys: the required names, lower-cased.
  const AccessKeyKey: string := "aws_access_key_id"
  const SecretKeyKey: string := "aws_secret_access_key"
  const RegionKey: string := "aws_default_region"
  const EndpointKey: string := "aws_s3_endpoint"
  const BucketKey: string := "aws_s3_bucket"

  /** The names of `names` absent from the environment. */
  function Missing(names: seq<string>, env: Env): (r: seq<string>)
    ensures |r| <= |names|
    ensures forall n :: n in r <==> n in names && n !in env
  {
    if names == [] then []
    else (if names[0] in env then [] else [names[0]]) + Missing(names[1..], env)
  }

  /** `a` comes strictly before `b` in `names`. */
  ghost predicate Before(names: seq<string>, a: string, b: string)
  {
    exists i, j :: 0 <= i < j < |names| && names[i] == a && names[j] == b
  }

  /** Every element of `r` comes before the later ones in `names`. */
  ghost predicate InOrderOf(r: seq<string>, names: seq<string>)
  {
    forall i, j :: 0 <= i < j < |r| ==> Before(names, r[i], r[j])
  }

  lemma BeforeInTail(names: seq<string>, a: string, b: string)
    requires |names| > 0 && Before(names[1..], a, b)
    ensures Before(names, a, b)
  {
    var i, j :| 0 <= i < j < |names[1..]| && names[1..][i] == a && names[1..][j] == b;
    assert names[i + 1] == a && names[j + 1] == b;
  }

  lemma BeforeFromHead(names: seq<string>, b: string)
    requires |names| > 0 && b in names[1..]
    ensures Before(names, names[0], b)
  {
    var j :| 0 <= j < |names[1..]| && names[1..][j] == b;
    assert names[j + 1] == b;
  }

  /** The missing names come in declaration order. */
  lemma {:induction false} MissingInOrder(names: seq<string>, env: Env)
    ensures InOrderOf(Missing(names, env), names)
    decreases |names|
  {
    if names != [] {
      var rest := Missing(names[1..], env);
      var r := Missing(names, env);
      MissingInOrder(names[1..], env);
      assert InOrderOf(rest, names[1..]);
      if names[0] in env {
        assert r == rest;
        forall i, j | 0 <= i < j < |r| ensures Before(names, r[i], r[j]) {
          BeforeInTail(names, r[i], r[j]);
        }
      } else {
        assert r == [names[0]] + rest;
        forall i, j | 0 <= i < j < |r| ensures Before(names, r[i], r[j]) {
          assert r[j] == rest[j - 1];
          if i == 0 {
            BeforeFromHead(names, r[j]);
          } else {
            assert r[i] == rest[i - 1];
            assert Before(names[1..], rest[i - 1], rest[j - 1]);
            BeforeInTail(names, r[i], r[j]);
          }
        }
      }
    }
  }

  /** The dictionary built by the loop over `names`: its keys are exactly the
      lower-cased names. */
  function BuildConfig(names: seq<string>, env: Env): (c: Config)
    requires forall n :: n in names ==> n in env
    ensures forall n :: n in names ==> Lower(n) in c
    decreases |names|
  {
    if names == [] then map[]
    else
      var last := names[|names| - 1];
      assert forall n :: n in names[..|names| - 1] ==> n in names;
      BuildConfig(names[..|names| - 1], env)[Lower(last) := env[last]]
  }

  /** The configuration, or the exit with the missing names. */
  function GetAwsConfig(env: Env): (r: Result<Config, seq<string>>)
    ensures r.Success? <==> forall n :: n in RequiredVars ==> n in env
    ensures r.Success? ==> EndpointKey in r.value && BucketKey in r.value
  {
    var missing := Missing(RequiredVars, env);
    if missing != [] then
      assert missing[0] in missing;
      Failure(missing)
    else
      NothingMissing(RequiredVars, env);
      ConfigKeys(env);
      Success(BuildConfig(RequiredVars, env))
  }

  /** Exactly the absent required names are reported, in declaration order,
      and then no configuration is built. */
  lemma MissingReported(env: Env)
    ensures var r := GetAwsConfig(env);
      && (r.Failure? <==> exists n :: n in RequiredVars && n !in env)
      && (r.Failure? ==>
            && (forall n :: n in r.error <==> n in RequiredVars && n !in env)
            && InOrderOf(r.error, RequiredVars))
  {
    var missing := Missing(RequiredVars, env);
    MissingInOrder(RequiredVars, env);
    if missing != [] {
      assert missing[0] in missing;
      assert GetAwsConfig(env) == Failure(missing);
    }
  }

  lemma LowerAccessKey() ensures Lower(RequiredVars[0]) == AccessKeyKey {}
  lemma LowerSecretKey() ensures Lower(RequiredVars[1]) == SecretKeyKey {}
  lemma LowerRegion() ensures Lower(RequiredVars[2]) == RegionKey {}
  lemma LowerEndpoint() ensures Lower(RequiredVars[3]) == EndpointKey {}
  lemma LowerBucket() ensures Lower(RequiredVars[4]) == BucketKey {}

  lemma NothingMissing(names: seq<string>, env: Env)
    requires forall n :: n in names ==> n in env
    ensures Missing(names, env) == []
  {
  }

  lemma BuildConfigSnoc(names: seq<string>, n: string, env: Env)
    requires forall m :: m in names + [n] ==> m in env
    ensures BuildConfig(names + [n], env) == BuildConfig(names, env)[Lower(n) := env[n]]
  {
    assert (names + [n])[..|names|] == names;
  }

  lemma ConfigKeys(env: Env)
    requires forall n :: n in RequiredVars ==> n in env
    ensures EndpointKey in BuildConfig(RequiredVars, env) && BucketKey in BuildConfig(RequiredVars, env)
  {
    var v := RequiredVars;
    LowerEndpoint();
    LowerBucket();
    assert v[..4] + [v[4]] == v;
    BuildConfigSnoc(v[..4], v[4], env);
    assert v[..3] + [v[3]] == v[..4];
    BuildConfigSnoc(v[..3], v[3], env);
  }

  /** With nothing missing the configuration maps the lower-cased names to the
      environment's values, verbatim, and holds nothing else. */
  lemma ConfigShape(env: Env)
    requires forall n :: n in RequiredVars ==> n in env
    ensures GetAwsConfig(env).Success?
    ensures var v := RequiredVars;
      var c := GetAwsConfig(env).value;
      c == map[
           AccessKeyKey := env[v[0]],
           SecretKeyKey := env[v[1]],
           RegionKey := env[v[2]],
           EndpointKey := env[v[3]],
           BucketKey := env[v[4]]]
  {
    var v := RequiredVars;
    NothingMissing(v, env);
    assert GetAwsConfig(env) == Success(BuildConfig(v, env));
    ConfigPrefix(env);
    ConfigSuffix(env);
  }

  /** The last two names extend the dictionary built from the first three. */
  lemma ConfigSuffix(env: Env)
    requires forall n :: n in RequiredVars ==> n in env
    ensures var v := RequiredVars;
      BuildConfig(v, env) == BuildConfig(v[..3], env)[EndpointKey := env[v[3]]][BucketKey := env[v[4]]]
  {
    var v := RequiredVars;
    LowerEndpoint();
    LowerBucket();
    assert v[..3] + [v[3]] == v[..4];
    BuildConfigSnoc(v[..3], v[3], env);
    assert v[..4] + [v[4]] == v;
    BuildConfigSnoc(v[..4], v[4], env);
  }

  /** The five keys are distinct, so the configuration has five entries. */
  lemma ConfigSize(env: Env)
    requires forall n :: n in RequiredVars ==> n in env
    ensures GetAwsConfig(env).Success? && |GetAwsConfig(env).value| == 5
  {
    var v := RequiredVars;
    ConfigShape(env);
    var m1 := map[AccessKeyKey := env[v[0]]];
    var m2 := m1[SecretKeyKey := env[v[1]]];
    assert |SecretKeyKey| != |AccessKeyKey|;
    var m3 := m2[RegionKey := env[v[2]]];
    assert |RegionKey| !in {|AccessKeyKey|, |SecretKeyKey|};
    var m4 := m3[EndpointKey := env[v[3]]];
    assert |EndpointKey| !in {|AccessKeyKey|, |SecretKeyKey|, |RegionKey|};
    var m5 := m4[BucketKey := env[v[4]]];
    assert |BucketKey| !in {|AccessKeyKey|, |SecretKeyKey|, |RegionKey|, |EndpointKey|};
    assert GetAwsConfig(env).value == m5;
  }

  /** The dictionary after the first three names. */
  lemma ConfigPrefix(env: Env)
    requires forall n :: n in RequiredVars ==> n in env
    ensures var v := RequiredVars;
      BuildConfig(v[..3], env) == map[AccessKeyKey := env[v[0]], SecretKeyKey := env[v[1]], RegionKey := env[v[2]]]
  {
    var v := RequiredVars;
    LowerAccessKey();
    LowerSecretKey();
    LowerRegion();
    assert [] + [v[0]] == v[..1];
    BuildConfigSnoc([], v[0], env);
    assert v[..1] + [v[1]] == v[..2];
    BuildConfigSnoc(v[..1], v[1], env);
    assert v[..2] + [v[2]] == v[..3];
    BuildConfigSnoc(v[..2], v[2], env);
  }
}

=== FILE: fallback.dfy ===
/**
 The connection block of the TLS diagnostic script (main.py:19-73): up to
 three attempts, each one reached only when the previous one failed with an
 SSL error.

   1. the default trust settings, then `list_buckets`;
   2. after extracting the server's chain into `storage.crt` (which becomes
      `AWS_CA_BUNDLE`), the same again;
   3. `connect_to_s3(verify_ssl=False)`, without `list_buckets`.

 Exceptions become phases of a state machine, each attempt's result is an
 abstract `Outcome`, and the process-wide `AWS_CA_BUNDLE` is the `bundle`
 field of the state. A `Variant` selects the code as written or the
 corrected behaviour (see `ThirdConnection` and `Step`).
 */
module Fallback {
  import opened Common
  import opened Log

  /** The three stages, in the order they are tried. */
  datatype Stage = DefaultTls | BundleTls | NoVerify

  function StageAt(i: nat): Stage
    requires i < 3
  {
    if i == 0 then DefaultTls else if i == 1 then BundleTls else NoVerify
  }

  function Index(st: Stage): nat
  {
    match st
    case DefaultTls => 0
    case BundleTls => 1
    case NoVerify => 2
  }

  /** What one attempt ended in: success, a `botocore` `SSLError`, or any other
      exception, given by its class name and text as `log_message` prints them
      (`ClassName: text`). */
  datatype Outcome = Ok | SslFail | OtherFail(error: string)

  /** Whether `perform_ssl_check` (the `openssl s_client | sed` pipeline) completed. */
  datatype Extraction = Extracted | ExtractionFailed

  /** The code as written, or with its two fallback defects repaired: the
      third client no longer verifies against `storage.crt`, which the second
      stage left in `AWS_CA_BUNDLE`, and `cert_bundle_used` is set only once
      the bundle connection has succeeded. */
  datatype Variant = AsWritten | Corrected

  /** The arguments of `boto3.client` that the stages vary. */
  datatype Connection = Connection(endpoint: string, verify: Verify)

  datatype Attempt = Attempt(stage: Stage, conn: Connection, listsBuckets: bool, outcome: Outcome)

  /** The exception that escaped the block. */
  datatype Raise = SslError | OtherError(error: string) | ExtractionError

  datatype Phase = Trying(stage: Stage) | Connected(at: Stage) | Raised(error: Raise)

  datatype State = State(
    phase: Phase,
    bundle: Option<string>,        // AWS_CA_BUNDLE
    sslFailed: bool,
    certBundleUsed: bool,
    attempts: seq<Attempt>,
    log: seq<LogLine>)

  const StorageCrt: string := "storage.crt"

  // The step labels of the lines the block prints.
  const FirstStep: string := "Step 1"
  const ConfigStep: string := "CONFIG"
  const SslCheckStep: string := "SSL CHECK"
  const UsingBundle: string := "Using custom CA bundle: "

  /** `connect_to_s3`: always HTTPS to the normalised endpoint; a set,
      non-empty `AWS_CA_BUNDLE` wins over `verify_ssl`. */
  function ConnectToS3(endpoint: string, bundle: Option<string>, verifySsl: bool): (c: Connection)
    ensures c.endpoint == HttpsScheme + endpoint
    ensures IsSet(bundle) ==> c.verify == CaBundle(bundle.value)
    ensures !IsSet(bundle) ==> (c.verify == Verified <==> verifySsl)
    ensures c.verify != Unverified <==> (IsSet(bundle) || verifySsl)
  {
    Connection(HttpsScheme + endpoint, if IsSet(bundle) then CaBundle(bundle.value) else if verifySsl then Verified else Unverified)
  }

  /** Once a bundle is set, asking for `verify_ssl=False` changes nothing. */
  lemma BundleOverridesVerifySsl(endpoint: string, bundle: Option<string>)
    requires IsSet(bundle)
    ensures ConnectToS3(endpoint, bundle, false) == ConnectToS3(endpoint, bundle, true)
    ensures ConnectToS3(endpoint, bundle, false).verify != Unverified
  {
  }

  /** The `CONFIG` line `connect_to_s3` prints when a bundle is set. */
  function BundleNotice(bundle: Option<string>): seq<LogLine>
  {
    if IsSet(bundle) then [LogLine(ConfigStep, Info, UsingBundle + bundle.value)] else []
  }

  /** The client of the third attempt: as written, `connect_to_s3(verify_ssl=False)`;
      corrected, a client that really skips certificate verification. */
  function ThirdConnection(endpoint: string, bundle: Option<string>, v: Variant): Connection
  {
    match v
    case AsWritten => ConnectToS3(endpoint, bundle, false)
    case Corrected => Connection(HttpsScheme + endpoint, Unverified)
  }

  function Step1(status: Status, message: string): LogLine
  {
    LogLine(FirstStep, status, message)
  }

  function Initial(env: Env): State
  {
    State(Trying(DefaultTls), Lookup(env, CaBundleVar), false, false, [],
          [Step1(Info, "Connecting to the S3 bucket with SSL...")])
  }

  /** The client an attempt builds at each stage. */
  function StageConnection(endpoint: string, bundle: Option<string>, st: Stage, v: Variant): Connection
  {
    if st == NoVerify then ThirdConnection(endpoint, bundle, v) else ConnectToS3(endpoint, bundle, true)
  }

  /** The `CONFIG` line printed while an attempt builds its client. */
  function StageNotice(bundle: Option<string>, st: Stage, v: Variant): seq<LogLine>
  {
    if st == NoVerify && v.Corrected? then [] else BundleNotice(bundle)
  }

  // The lines printed after each attempt.
  const DefaultOk: string := "Successfully verified SSL connection."
  const DefaultSslFailed: string := "SSL connection using default CA failed."
  const Generating: string := "Generating storage.crt using OpenSSL..."
  const Extracting: string := "Attempting custom CA bundle creation using OpenSSL..."
  const BundleOk: string := "Connected using custom CA bundle (storage.crt)."
  const Retrying: string := "Retrying connection without SSL verification..."
  const NoVerifyOk: string := "Connected to the S3 bucket without SSL."
  const ConnectionFailed: string := "Connection failed: "
  const SslErrorName: string := "SSLError"

  /** What an attempt's outcome does to the block: the next phase, the
      active bundle, the two flags and the lines printed after the attempt. */
  datatype Transition = Transition(phase: Phase, bundle: Option<string>, sslFailed: bool, certBundleUsed: bool, lines: seq<LogLine>)

  function Transit(s: State, o: Outcome, x: Extraction, v: Variant): (t: Transition)
    requires s.phase.Trying?
    ensures o == Ok <==> t.phase == Connected(s.phase.stage)
    ensures o.OtherFail? ==> t.phase == Raised(OtherError(o.error))
    ensures t.phase.Trying? ==> o == SslFail && Index(t.phase.stage) == Index(s.phase.stage) + 1
    ensures s.sslFailed ==> t.sslFailed
    ensures s.certBundleUsed ==> t.certBundleUsed
  {
    var keep := Transition(s.phase, s.bundle, s.sslFailed, s.certBundleUsed, []);
    match s.phase.stage
    case DefaultTls =>
      (match o
       case Ok =>
         keep.(phase := Connected(DefaultTls), lines := [Step1(Succeeded, DefaultOk)])
       case OtherFail(e) =>
         keep.(phase := Raised(OtherError(e)))
       case SslFail =>
         var lines := [Step1(Error, DefaultSslFailed),
                       Step1(Info, Generating),
                       LogLine(SslCheckStep, Info, Extracting)];
         match x
         case ExtractionFailed =>
           keep.(phase := Raised(ExtractionError), lines := lines)
         case Extracted =>
           // As written, cert_bundle_used is set before the retry is known to work.
           Transition(Trying(BundleTls), Some(StorageCrt), s.sslFailed, s.certBundleUsed || v.AsWritten?, lines))
    case BundleTls =>
      (match o
       case Ok =>
         keep.(phase := Connected(BundleTls), certBundleUsed := true,
               lines := [Step1(Succeeded, BundleOk)])
       case SslFail =>
         keep.(phase := Trying(NoVerify), sslFailed := true,
               lines := [Step1(Info, Retrying)])
       case OtherFail(e) =>
         keep.(phase := Raised(OtherError(e))))
    case NoVerify =>
      match o
      case Ok =>
        keep.(phase := Connected(NoVerify), lines := [Step1(Succeeded, NoVerifyOk)])
      case SslFail =>
        keep.(phase := Raised(SslError), lines := [Step1(Error, ConnectionFailed + SslErrorName)])
      case OtherFail(e) =>
        keep.(phase := Raised(OtherError(e)), lines := [Step1(Error, ConnectionFailed + e)])
  }

  /** One attempt, driven by its outcome: the attempt is recorded once, for
      the current stage, after the earlier ones, and the log only grows; then
      the outcome decides what follows. */
  function Step(endpoint: string, s: State, o: Outcome, x: Extraction, v: Variant): (r: State)
    requires s.phase.Trying?
    ensures |r.attempts| == |s.attempts| + 1 && r.attempts[..|s.attempts|] == s.attempts
    ensures r.attempts[|s.attempts|].stage == s.phase.stage && r.attempts[|s.attempts|].outcome == o
    ensures |s.log| <= |r.log| && r.log[..|s.log|] == s.log
  {
    var st := s.phase.stage;
    var a := Attempt(st, StageConnection(endpoint, s.bundle, st, v), st != NoVerify, o);
    var t := Transit(s, o, x, v);
    assert (s.attempts + [a])[..|s.attempts|] == s.attempts;
    assert (s.log + StageNotice(s.bundle, st, v) + t.lines)[..|s.log|] == s.log;
    State(t.phase, t.bundle, t.sslFailed, t.certBundleUsed, s.attempts + [a], s.log + StageNotice(s.bundle, st, v) + t.lines)
  }

  /** The block driven by the outcomes of successive attempts, until it connects,
      raises, or the outcomes run out. It only appends attempts, at most one
      per outcome; while it is still trying, every outcome has been consumed. */
  function Run(endpoint: string, s: State, outcomes: seq<Outcome>, x: Extraction, v: Variant): (r: State)
    ensures |s.attempts| <= |r.attempts| <= |s.attempts| + |outcomes|
    ensures r.attempts[..|s.attempts|] == s.attempts
    ensures r.phase.Trying? ==> |r.attempts| == |s.attempts| + |outcomes|
    decreases |outcomes|
  {
    if |outcomes| == 0 || !s.phase.Trying? then s
    else
      var s' := Step(endpoint, s, outcomes[0], x, v);
      var r := Run(endpoint, s', outcomes[1..], x, v);
      assert r.attempts[..|s.attempts|] == r.attempts[..|s'.attempts|][..|s.attempts|];
      r
  }

  /** The whole block from the initial environment. Its end state satisfies
      the invariant `Reachable`, and the attempts carry the outcomes consumed,
      in order. */
  function Connect(endpoint: string, env: Env, outcomes: seq<Outcome>, x: Extraction, v: Variant): (r: State)
    ensures Reachable(r, endpoint, Lookup(env, CaBundleVar), x, v)
    ensures |r.attempts| <= |outcomes|
    ensures forall i :: 0 <= i < |r.attempts| ==> r.attempts[i].outcome == outcomes[i]
    ensures r.phase.Trying? ==> |r.attempts| == |outcomes|
  {
    InitialReachable(endpoint, env, x, v);
    RunReachable(endpoint, Initial(env), outcomes, x, v, Lookup(env, CaBundleVar));
    RunAttempts(endpoint, Initial(env), outcomes, x, v);
    Run(endpoint, Initial(env), outcomes, x, v)
  }

  // ---------------------------------------------------------------------------
  // The invariant of every reachable state

  /** The certificate chain was extracted: the default attempt failed on SSL and the pipeline ran. */
  predicate ExtractionDone(atts: seq<Attempt>, x: Extraction)
  {
    |atts| >= 1 && atts[0].outcome == SslFail && x == Extracted
  }

  /** Attempts are made in the fixed stage order, at most three of them. */
  predicate InStageOrder(atts: seq<Attempt>)
  {
    |atts| <= 3 && forall i :: 0 <= i < |atts| ==> atts[i].stage == StageAt(i)
  }

  /** Only an SSL error leads on to the next attempt. */
  predicate OnlySslAdvances(atts: seq<Attempt>)
  {
    forall i :: 0 <= i < |atts| - 1 ==> atts[i].outcome == SslFail
  }

  /** Every attempt talks HTTPS to the normalised endpoint; only the first two list buckets. */
  predicate HttpsAndListing(atts: seq<Attempt>, endpoint: string)
  {
    forall i :: 0 <= i < |atts| ==>
      atts[i].conn.endpoint == HttpsScheme + endpoint && (atts[i].listsBuckets <==> i < 2)
  }

  function ThirdVerify(v: Variant): Verify
  {
    if v.AsWritten? then CaBundle(StorageCrt) else Unverified
  }

  /** Which trust settings each attempt used. */
  predicate VerifySettings(atts: seq<Attempt>, endpoint: string, bundle0: Option<string>, v: Variant)
  {
    && (|atts| >= 1 ==> atts[0].conn == ConnectToS3(endpoint, bundle0, true))
    && (|atts| >= 2 ==> atts[1].conn.verify == CaBundle(StorageCrt))
    && (|atts| == 3 ==> atts[2].conn.verify == ThirdVerify(v))
  }

  /** The flags and AWS_CA_BUNDLE as the attempts so far determine them. */
  predicate FlagsAgree(s: State, bundle0: Option<string>, x: Extraction, v: Variant)
  {
    var atts := s.attempts;
    && s.bundle == (if ExtractionDone(atts, x) then Some(StorageCrt) else bundle0)
    && (s.sslFailed <==> |atts| >= 2 && atts[1].outcome == SslFail)
    && (v.AsWritten? ==> (s.certBundleUsed <==> ExtractionDone(atts, x)))
    && (v.Corrected? ==> (s.certBundleUsed <==> s.phase == Connected(BundleTls)))
  }

  /** The phase agrees with the last attempt. */
  predicate PhaseAgrees(s: State, x: Extraction)
  {
    var atts := s.attempts;
    var n := |atts|;
    match s.phase
    case Trying(st) =>
      Index(st) == n && (n >= 1 ==> ExtractionDone(atts, x) && atts[n - 1].outcome == SslFail)
    case Connected(st) =>
      n == Index(st) + 1 && atts[n - 1].outcome == Ok
    case Raised(e) =>
      n >= 1 &&
      match e
      case ExtractionError => n == 1 && atts[0].outcome == SslFail && x == ExtractionFailed
      case OtherError(e) => atts[n - 1].outcome == OtherFail(e)
      case SslError => n == 3 && atts[2].outcome == SslFail
  }

  predicate Reachable(s: State, endpoint: string, bundle0: Option<string>, x: Extraction, v: Variant)
  {
    && InStageOrder(s.attempts)
    && OnlySslAdvances(s.attempts)
    && HttpsAndListing(s.attempts, endpoint)
    && (|s.attempts| >= 2 ==> ExtractionDone(s.attempts, x))
    && VerifySettings(s.attempts, endpoint, bundle0, v)
    && FlagsAgree(s, bundle0, x, v)
    && PhaseAgrees(s, x)
  }

  lemma InitialReachable(endpoint: string, env: Env, x: Extraction, v: Variant)
    ensures Reachable(Initial(env), endpoint, Lookup(env, CaBundleVar), x, v)
  {
  }

  lemma AppendKeepsOrder(atts: seq<Attempt>, a: Attempt, endpoint: string)
    requires InStageOrder(atts) && OnlySslAdvances(atts) && HttpsAndListing(atts, endpoint)
    requires |atts| < 3 && a.stage == StageAt(|atts|)
    requires |atts| >= 1 ==> atts[|atts| - 1].outcome == SslFail
    requires a.conn.endpoint == HttpsScheme + endpoint && (a.listsBuckets <==> |atts| < 2)
    ensures InStageOrder(atts + [a]) && OnlySslAdvances(atts + [a]) && HttpsAndListing(atts + [a], endpoint)
  {
  }

  lemma StepReachableDefault(endpoint: string, s: State, o: Outcome, x: Extraction, v: Variant, bundle0: Option<string>)
    requires s.phase == Trying(DefaultTls) && Reachable(s, endpoint, bundle0, x, v)
    ensures Reachable(Step(endpoint, s, o, x, v), endpoint, bundle0, x, v)
  {
    var s' := Step(endpoint, s, o, x, v);
    assert s.attempts == [] && s.bundle == bundle0;
    assert s'.attempts == [s'.attempts[0]];
    AppendKeepsOrder(s.attempts, s'.attempts[0], endpoint);
    assert s.attempts + [s'.attempts[0]] == s'.attempts;
  }

  lemma StepReachableBundle(endpoint: string, s: State, o: Outcome, x: Extraction, v: Variant, bundle0: Option<string>)
    requires s.phase == Trying(BundleTls) && Reachable(s, endpoint, bundle0, x, v)
    ensures Reachable(Step(endpoint, s, o, x, v), endpoint, bundle0, x, v)
  {
    var s' := Step(endpoint, s, o, x, v);
    var a := s'.attempts[1];
    assert |s.attempts| == 1 && ExtractionDone(s.attempts, x) && s.bundle == Some(StorageCrt);
    assert s'.attempts == s.attempts + [a];
    AppendKeepsOrder(s.attempts, a, endpoint);
  }

  lemma StepReachableNoVerify(endpoint: string, s: State, o: Outcome, x: Extraction, v: Variant, bundle0: Option<string>)
    requires s.phase == Trying(NoVerify) && Reachable(s, endpoint, bundle0, x, v)
    ensures Reachable(Step(endpoint, s, o, x, v), endpoint, bundle0, x, v)
  {
    var s' := Step(endpoint, s, o, x, v);
    var a := s'.attempts[2];
    assert |s.attempts| == 2 && ExtractionDone(s.attempts, x) && s.bundle == Some(StorageCrt);
    assert s'.attempts == s.attempts + [a];
    AppendKeepsOrder(s.attempts, a, endpoint);
  }

  lemma StepReachable(endpoint: string, s: State, o: Outcome, x: Extraction, v: Variant, bundle0: Option<string>)
    requires s.phase.Trying? && Reachable(s, endpoint, bundle0, x, v)
    ensures Reachable(Step(endpoint, s, o, x, v), endpoint, bundle0, x, v)
  {
    match s.phase.stage
    case DefaultTls => StepReachableDefault(endpoint, s, o, x, v, bundle0);
    case BundleTls => StepReachableBundle(endpoint, s, o, x, v, bundle0);
    case NoVerify => StepReachableNoVerify(endpoint, s, o, x, v, bundle0);
  }

  /** Every state the block reaches satisfies `Reachable`. */
  lemma {:induction false} RunReachable(endpoint: string, s: State, outcomes: seq<Outcome>, x: Extraction, v: Variant, bundle0: Option<string>)
    requires Reachable(s, endpoint, bundle0, x, v)
    ensures Reachable(Run(endpoint, s, outcomes, x, v), endpoint, bundle0, x, v)
    decreases |outcomes|
  {
    if |outcomes| > 0 && s.phase.Trying? {
      StepReachable(endpoint, s, outcomes[0], x, v, bundle0);
      RunReachable(endpoint, Step(endpoint, s, outcomes[0], x, v), outcomes[1..], x, v, bundle0);
    }
  }

  /** The attempts the block adds carry the outcomes consumed, in order. */
  lemma {:induction false} RunAttempts(endpoint: string, s: State, outcomes: seq<Outcome>, x: Extraction, v: Variant)
    ensures forall i :: |s.attempts| <= i < |Run(endpoint, s, outcomes, x, v).attempts| ==>
      Run(endpoint, s, outcomes, x, v).attempts[i].outcome == outcomes[i - |s.attempts|]
    decreases |outcomes|
  {
    if |outcomes| > 0 && s.phase.Trying? {
      var s' := Step(endpoint, s, outcomes[0], x, v);
      RunAttempts(endpoint, s', outcomes[1..], x, v);
      var r := Run(endpoint, s', outcomes[1..], x, v);
      assert Run(endpoint, s, outcomes, x, v) == r;
      var n := |s.attempts|;
      assert |s'.attempts| == n + 1;
      assert r.attempts[n] == r.attempts[..n + 1][n];
      forall i | n <= i < |r.attempts| ensures r.attempts[i].outcome == outcomes[i - n] {
        if i > n {
          assert r.attempts[i].outcome == outcomes[1..][i - (n + 1)];
        }
      }
    }
  }

  // ---------------------------------------------------------------------------
  // Properties of the block

  /** At most three attempts, in the fixed order default, bundle, no
      verification; only an SSL error moves on; every attempt is HTTPS to the
      normalised endpoint; only the first two call `list_buckets`. */
  lemma FallbackOrder(endpoint: string, env: Env, outcomes: seq<Outcome>, x: Extraction, v: Variant)
    ensures var r := Connect(endpoint, env, outcomes, x, v);
      && |r.attempts| <= 3
      && (forall i :: 0 <= i < |r.attempts| ==> r.attempts[i].stage == StageAt(i))
      && (forall i :: 0 <= i < |r.attempts| - 1 ==> r.attempts[i].outcome == SslFail)
      && (forall i :: 0 <= i < |r.attempts| ==> r.attempts[i].conn.endpoint == HttpsScheme + endpoint)
      && (forall i :: 0 <= i < |r.attempts| ==> (r.attempts[i].listsBuckets <==> r.attempts[i].stage != NoVerify))
  {
  }

  /** Three outcomes always decide the block: it has connected or raised. */
  lemma FallbackDecides(endpoint: string, env: Env, outcomes: seq<Outcome>, x: Extraction, v: Variant)
    requires |outcomes| >= 3
    ensures !Connect(endpoint, env, outcomes, x, v).phase.Trying?
  {
  }

  /** A non-SSL failure of the first attempt is fatal at once: nothing else is tried. */
  lemma OtherFailureIsFatal(endpoint: string, env: Env, outcomes: seq<Outcome>, x: Extraction, v: Variant)
    requires |outcomes| >= 1 && outcomes[0].OtherFail?
    ensures Connect(endpoint, env, outcomes, x, v).phase == Raised(OtherError(outcomes[0].error))
    ensures |Connect(endpoint, env, outcomes, x, v).attempts| == 1
    ensures !Connect(endpoint, env, outcomes, x, v).sslFailed
    ensures !Connect(endpoint, env, outcomes, x, v).certBundleUsed
  {
  }

  /** A failed extraction is fatal too, after exactly one attempt. */
  lemma ExtractionFailureIsFatal(endpoint: string, env: Env, outcomes: seq<Outcome>, v: Variant)
    requires |outcomes| >= 1 && outcomes[0] == SslFail
    ensures Connect(endpoint, env, outcomes, ExtractionFailed, v).phase == Raised(ExtractionError)
    ensures |Connect(endpoint, env, outcomes, ExtractionFailed, v).attempts| == 1
  {
  }

  /** The full fallback: two SSL failures, then the third attempt succeeds. */
  lemma FullFallback(endpoint: string, env: Env, v: Variant)
    ensures var r := Connect(endpoint, env, [SslFail, SslFail, Ok], Extracted, v);
      && r.phase == Connected(NoVerify)
      && |r.attempts| == 3
      && r.attempts[0].stage == DefaultTls && r.attempts[1].stage == BundleTls && r.attempts[2].stage == NoVerify
      && r.sslFailed
      && r.bundle == Some(StorageCrt)
  {
  }

  /** The two flags, in terms of the attempts made: `ssl_failed` exactly when the
      bundle retry failed on SSL; `cert_bundle_used`, as written, exactly when the
      chain was extracted, and, corrected, exactly when the bundle retry connected. */
  lemma FlagsMeaning(endpoint: string, env: Env, outcomes: seq<Outcome>, x: Extraction, v: Variant)
    ensures var r := Connect(endpoint, env, outcomes, x, v);
      && (r.sslFailed <==> |r.attempts| >= 2 && r.attempts[1].outcome == SslFail)
      && (v.AsWritten? ==> (r.certBundleUsed <==> |r.attempts| >= 1 && r.attempts[0].outcome == SslFail && x == Extracted))
      && (v.Corrected? ==> (r.certBundleUsed <==> r.phase == Connected(BundleTls)))
      && (r.bundle == Some(StorageCrt) || r.bundle == Lookup(env, CaBundleVar))
  {
  }

  /** As written, the third attempt still verifies against `storage.crt`:
      `verify_ssl=False` is overridden by the bundle the extraction installed. */
  lemma ThirdAttemptKeepsBundle(endpoint: string, env: Env, outcomes: seq<Outcome>)
    requires |outcomes| >= 3 && outcomes[0] == SslFail && outcomes[1] == SslFail
    ensures var r := Connect(endpoint, env, outcomes, Extracted, AsWritten);
      |r.attempts| == 3 && r.attempts[2].conn.verify == CaBundle(StorageCrt)
  {
  }

  /** Corrected, the third attempt is the only one without certificate verification. */
  lemma ThirdAttemptUnverified(endpoint: string, env: Env, outcomes: seq<Outcome>, x: Extraction)
    ensures var r := Connect(endpoint, env, outcomes, x, Corrected);
      && (|r.attempts| == 3 ==> r.attempts[2].conn.verify == Unverified)
      && (forall i :: 0 <= i < |r.attempts| && i < 2 && !IsSet(Lookup(env, CaBundleVar)) ==> r.attempts[i].conn.verify != Unverified)
  {
  }

  /** As written, `cert_bundle_used` is raised although the bundle retry failed. */
  lemma BundleFlagWithoutBundleSuccess(endpoint: string, env: Env)
    ensures var r := Connect(endpoint, env, [SslFail, SslFail, Ok], Extracted, AsWritten);
      r.certBundleUsed && r.sslFailed && r.attempts[1].outcome == SslFail
  {
    FullFallback(endpoint, env, AsWritten);
    FlagsMeaning(endpoint, env, [SslFail, SslFail, Ok], Extracted, AsWritten);
  }

  /** Corrected, the bundle flag and the HTTP-fallback flag exclude each other. */
  lemma CorrectedFlagsExclusive(endpoint: string, env: Env, outcomes: seq<Outcome>, x: Extraction)
    ensures var r := Connect(endpoint, env, outcomes, x, Corrected);
      !(r.certBundleUsed && r.sslFailed)
  {
  }

  /** With three outcomes at hand the block is decided: it ends connected
      exactly when its last attempt succeeded, and once connected the two flags
      can be read off the number of attempts it needed. */
  lemma DecidedFlags(endpoint: string, env: Env, outcomes: seq<Outcome>, x: Extraction, v: Variant)
    requires |outcomes| >= 3
    ensures var r := Connect(endpoint, env, outcomes, x, v);
      && !r.phase.Trying?
      && 1 <= |r.attempts| <= 3
      && (r.phase.Connected? <==> r.attempts[|r.attempts| - 1].outcome == Ok)
      && (forall i :: 0 <= i < |r.attempts| ==> r.attempts[i].conn.endpoint == HttpsScheme + endpoint)
      && (r.phase.Connected? ==>
            && (r.sslFailed <==> |r.attempts| == 3)
            && (v.AsWritten? ==> (r.certBundleUsed <==> |r.attempts| >= 2))
            && (v.Corrected? ==> (r.certBundleUsed <==> |r.attempts| == 2)))
  {
  }
}

=== FILE: log.dfy ===
/**
 The console lines of the TLS diagnostic script: `[step] [status] message`.
 Printing is left out; a run is described by the lines it would print.
 */
module Log {

  datatype Status = Info | Succeeded | Error | File

  datatype LogLine = LogLine(step: string, status: Status, message: string)

  function StatusName(s: Status): string
  {
    match s
    case Info => "INFO"
    case Succeeded => "SUCCESS"
    case Error => "ERROR"
    case File => "FILE"
  }

  /** The text `log_message` prints for a line. */
  function Render(l: LogLine): string
  {
    "[" + l.step + "] [" + StatusName(l.status) + "] " + l.message
  }

  /** How many lines of `log` carry status `st`. */
  function CountStatus(log: seq<LogLine>, st: Status): nat
  {
    if log == [] then 0
    else CountStatus(log[..|log| - 1], st) + (if log[|log| - 1].status == st then 1 else 0)
  }

  lemma {:induction false} CountStatusAppend(a: seq<LogLine>, b: seq<LogLine>, st: Status)
    ensures CountStatus(a + b, st) == CountStatus(a, st) + CountStatus(b, st)
    decreases |b|
  {
    if b == [] {
      assert a + b == a;
    } else {
      assert (a + b)[..|a + b| - 1] == a + b[..|b| - 1];
      CountStatusAppend(a, b[..|b| - 1], st);
    }
  }
}

=== FILE: object_tasks.dfy ===
/**
 The object-store work of the S3 verification script (0_verify_s3.py:74-111):
 the per-scenario folder/file round trip, the bucket listing and the cleanup
 of created keys. The bucket is a map from key to bytes; every SDK call is an
 abstract reply chosen by the caller.
 */
module ObjectTasks {
  import opened Common
  import opened Text

  /** The bucket's contents. */
  type Store = map<string, Bytes>

  /** The outcome of one SDK call that returns nothing. */
  datatype Reply = Done | Raised(error: Exception)

  /** The outcome of `download_fileobj`: the bytes written to the buffer. */
  datatype Download = Downloaded(data: Bytes) | DownloadRaised(error: Exception)

  /** The replies of `put_object`, `upload_fileobj` and `download_fileobj`. */
  datatype TaskReplies = TaskReplies(put: Reply, upload: Reply, download: Download)

  /** Why `perform_s3_tasks` raised: a call failed, or the `ValueError` of a
      download that differs from the upload. */
  datatype TaskError = CallFailed(error: Exception) | Mismatch

  /** The bucket afterwards and the returned key or the raised error. */
  datatype TaskRun = TaskRun(store: Store, result: Result<string, TaskError>)

  const Separator: char := '/'

  /** The file name derived from a folder: `file_` + the folder without
      surrounding slashes, inner slashes turned into `_`, + `.txt`. */
  function FileName(folder: string): (name: string)
    ensures Separator !in name
  {
    "file_" + ReplaceChar(Trim(folder, {Separator}), Separator, '_') + ".txt"
  }

  /** The uploaded object's key: the folder followed by its file name. The key
      lies inside the folder and adds no deeper level. */
  function FileKey(folder: string): (key: string)
    ensures StartsWith(key, folder) && |key| > |folder|
    ensures EndsWith(key, ".txt")
    ensures Separator !in key[|folder|..]
  {
    var key := folder + FileName(folder);
    assert key[|folder|..] == FileName(folder);
    key
  }

  lemma ScenarioTrim(mode: string)
    requires mode != [] && Separator !in mode
    ensures Trim("test/" + mode + "/", {Separator}) == "test/" + mode
  {
    var folder := "test/" + mode + "/";
    var inner := "test/" + mode;
    assert TrimLeft(folder, {Separator}) == folder by {
      assert folder[0] == 't';
    }
    assert TrimRight(folder, {Separator}) == inner by {
      assert folder[..|folder| - 1] == inner;
      assert inner[|inner| - 1] == mode[|mode| - 1];
    }
  }

  lemma ScenarioFlat(mode: string)
    requires Separator !in mode
    ensures ReplaceChar("test/" + mode, Separator, '_') == "test_" + mode
  {
    var inner, flat := "test/" + mode, "test_" + mode;
    var r := ReplaceChar(inner, Separator, '_');
    forall i | 0 <= i < |r| ensures r[i] == flat[i] {
      if i >= 5 {
        assert inner[i] == mode[i - 5] == flat[i];
      } else if i == 4 {
        assert inner[i] == Separator;
      } else {
        assert inner[i] == flat[i];
      }
    }
  }

  lemma ScenarioFileName(mode: string)
    requires mode != [] && Separator !in mode
    ensures FileName("test/" + mode + "/") == "file_test_" + mode + ".txt"
  {
    ScenarioTrim(mode);
    ScenarioFlat(mode);
    var flat := "test_" + mode;
    assert FileName("test/" + mode + "/") == "file_" + flat + ".txt";
    assert "file_" + flat == "file_test_" + mode by {
      assert "file_" + "test_" == "file_test_";
      assert "file_" + flat == ("file_" + "test_") + mode;
    }
  }

  /** The file key of every scenario folder `test/<mode>/`: the folder
      followed by `file_test_<mode>.txt`. */
  lemma ScenarioFileKey(mode: string)
    requires mode != [] && Separator !in mode
    ensures FileKey("test/" + mode + "/") == "test/" + mode + "/file_test_" + mode + ".txt"
  {
    ScenarioFileName(mode);
    KeyOfName("test/" + mode + "/", "file_test_" + mode + ".txt");
    ScenarioKeyText(mode);
  }

  lemma ScenarioKeyText(mode: string)
    ensures "test/" + mode + "/" + ("file_test_" + mode + ".txt") == "test/" + mode + "/file_test_" + mode + ".txt"
  {
    assert "/" + "file_test_" == "/file_test_";
    Regroup("test/" + mode, "/", "file_test_", mode, ".txt");
  }

  lemma KeyOfName(folder: string, name: string)
    requires FileName(folder) == name
    ensures FileKey(folder) == folder + name
  {
  }

  lemma Regroup(a: string, b: string, c: string, d: string, e: string)
    ensures (a + b) + ((c + d) + e) == ((a + (b + c)) + d) + e
  {
  }

  /** Two folders of the usual `…/` shape never share a file key. */
  lemma FileKeyInjective(f1: string, f2: string)
    requires EndsWith(f1, "/") && EndsWith(f2, "/")
    requires FileKey(f1) == FileKey(f2)
    ensures f1 == f2
  {
    var k := FileKey(f1);
    assert f1 == k[..|f1|];
  }

  /** `perform_s3_tasks`: create the folder marker, upload `content` under the
      file key, download it again and compare. Success returns the file key
      exactly when every call succeeded and the bytes came back unchanged; a
      different download is reported as `Mismatch`, and a failed call
      re-raises its own exception. Only the folder and the
      file key are written, and nothing is removed. */
  function PerformTasks(store: Store, folder: string, content: Bytes, replies: TaskReplies): (r: TaskRun)
    ensures r.result.Success? <==>
      replies.put == Done && replies.upload == Done && replies.download == Downloaded(content)
    ensures r.result.Success? ==> r.result.value == FileKey(folder)
    ensures r.result == Failure(Mismatch) <==>
      replies.put == Done && replies.upload == Done &&
      replies.download.Downloaded? && replies.download.data != content
    ensures replies.put.Raised? ==> r.result == Failure(CallFailed(replies.put.error))
    ensures replies.put == Done && replies.upload.Raised? ==>
      r.result == Failure(CallFailed(replies.upload.error))
    ensures replies.put == Done && replies.upload == Done && replies.download.DownloadRaised? ==>
      r.result == Failure(CallFailed(replies.download.error))
    ensures replies.put.Raised? ==> r.store == store
    ensures replies.put == Done ==> folder in r.store && r.store[folder] == []
    ensures replies.put == Done && replies.upload == Done ==>
      FileKey(folder) in r.store && r.store[FileKey(folder)] == content
    ensures replies.upload.Raised? ==> FileKey(folder) !in store ==> FileKey(folder) !in r.store
    ensures store.Keys <= r.store.Keys
    ensures forall k :: k in r.store && k != folder && k != FileKey(folder) ==> k in store && r.store[k] == store[k]
  {
    var key := FileKey(folder);
    if replies.put.Raised? then TaskRun(store, Failure(CallFailed(replies.put.error)))
    else
      var marked := store[folder := []];
      if replies.upload.Raised? then TaskRun(marked, Failure(CallFailed(replies.upload.error)))
      else
        var uploaded := marked[key := content];
        match replies.download
        case DownloadRaised(e) => TaskRun(uploaded, Failure(CallFailed(e)))
        case Downloaded(data) =>
          if data != content then TaskRun(uploaded, Failure(Mismatch))
          else TaskRun(uploaded, Success(key))
  }

  /** A bucket that returns what was stored makes the round trip succeed. */
  lemma RoundTrip(store: Store, folder: string, content: Bytes)
    ensures var stored := PerformTasks(store, folder, content, TaskReplies(Done, Done, DownloadRaised(OtherException(""))));
      var fetched := stored.store[FileKey(folder)];
      PerformTasks(store, folder, content, TaskReplies(Done, Done, Downloaded(fetched))).result == Success(FileKey(folder))
  {
  }

  /** All pages of `list_objects_v2`, each holding the keys of its `Contents`
      (empty when the page has none), or the exception raised while paging. */
  datatype Listing = Pages(pages: seq<seq<string>>) | ListRaised(error: Exception)

  /** The keys of all pages, page by page. */
  function Flatten(pages: seq<seq<string>>): (r: seq<string>)
    ensures forall k :: k in r <==> exists i :: 0 <= i < |pages| && k in pages[i]
  {
    if pages == [] then [] else pages[0] + Flatten(pages[1..])
  }

  /** `list_all_files`: every key of every page; an SDK error yields the empty
      list, any other exception escapes. */
  function ListAllFiles(listing: Listing): (r: Result<seq<string>, Exception>)
    ensures listing.Pages? ==> r.Success? && forall k :: k in r.value <==>
      exists i :: 0 <= i < |listing.pages| && k in listing.pages[i]
    ensures listing.ListRaised? && listing.error.SdkException? ==> r == Success([])
    ensures listing.ListRaised? && listing.error.OtherException? ==> r == Failure(listing.error)
  {
    match listing
    case Pages(pages) => Success(Flatten(pages))
    case ListRaised(SdkException(m)) => Success([])
    case ListRaised(e) => Failure(e)
  }

  /** The listing shows exactly the bucket's keys. */
  ghost predicate ListsStore(listing: Listing, store: Store)
  {
    listing.Pages? && forall k :: (exists i :: 0 <= i < |listing.pages| && k in listing.pages[i]) <==> k in store
  }

  /** A faithful listing after a successful round trip shows the folder marker
      and the file. */
  lemma ListingShowsTaskKeys(store: Store, folder: string, content: Bytes, replies: TaskReplies, listing: Listing)
    requires PerformTasks(store, folder, content, replies).result.Success?
    requires ListsStore(listing, PerformTasks(store, folder, content, replies).store)
    ensures folder in ListAllFiles(listing).value && FileKey(folder) in ListAllFiles(listing).value
  {
  }

  /** The cleanup loop's record: the keys deleted and the keys whose deletion
      the SDK refused, in order, and the exception that ended the loop early,
      if any. */
  datatype CleanupRun = CleanupRun(store: Store, deleted: seq<string>, failed: seq<string>, aborted: Option<Exception>)

  /** Deletion of `k` ends the loop: an exception that is not the SDK's. */
  predicate Aborts(delete: string -> Reply, k: string)
  {
    delete(k).Raised? && delete(k).error.OtherException?
  }

  /** How many keys the cleanup loop gets through: the index of the first key
      whose deletion aborts it, or all of them. */
  function Processed(keys: seq<string>, delete: string -> Reply): (n: nat)
    ensures n <= |keys|
    ensures forall j :: 0 <= j < n ==> !Aborts(delete, keys[j])
    ensures n < |keys| ==> Aborts(delete, keys[n])
    decreases |keys|
  {
    if keys == [] || Aborts(delete, keys[0]) then 0 else 1 + Processed(keys[1..], delete)
  }

  /** `cleanup`: delete every key in turn. A key the SDK fails to delete is
      reported and the loop goes on; only a foreign exception stops it (see
      `CleanupStopsAtAbort` for what has happened by then). */
  function Cleanup(store: Store, keys: seq<string>, delete: string -> Reply): (r: CleanupRun)
    ensures r.aborted.Some? <==> exists k :: k in keys && Aborts(delete, k)
    ensures r.aborted.None? ==> |r.deleted| + |r.failed| == |keys|
    ensures r.aborted.None? ==> forall k :: k in keys ==>
      (k in r.deleted <==> delete(k) == Done) && (k in r.failed <==> delete(k).Raised?)
    ensures r.aborted.None? ==> forall k :: k in r.store <==> k in store && !(k in keys && delete(k) == Done)
    ensures forall k :: k in r.deleted ==> k in keys && delete(k) == Done && k !in r.store
    ensures forall k :: k in r.failed ==> k in keys && delete(k).Raised? && delete(k).error.SdkException?
    ensures forall k :: k in r.store ==> k in store && r.store[k] == store[k]
    ensures forall k :: k in store && k !in keys ==> k in r.store
    decreases |keys|
  {
    if keys == [] then CleanupRun(store, [], [], None)
    else
      var k := keys[0];
      match delete(k)
      case Done =>
        var rest := Cleanup(store - {k}, keys[1..], delete);
        rest.(deleted := [k] + rest.deleted)
      case Raised(SdkException(m)) =>
        var rest := Cleanup(store, keys[1..], delete);
        rest.(failed := [k] + rest.failed)
      case Raised(e) =>
        assert k in keys && Aborts(delete, k);
        CleanupRun(store, [], [], Some(e))
  }

  /** A foreign exception ends the loop at the first key whose deletion raises
      it: exactly the keys before that one were deleted or reported, every
      other key of the bucket is still there, and the exception is the one
      that escapes. Without such a key, `Processed` covers all keys. */
  lemma {:induction false} CleanupStopsAtAbort(store: Store, keys: seq<string>, delete: string -> Reply)
    ensures var r := Cleanup(store, keys, delete);
      && (r.aborted.Some? ==> r.aborted == Some(delete(keys[Processed(keys, delete)]).error))
      && |r.deleted| + |r.failed| == Processed(keys, delete)
      && (forall k :: k in keys[..Processed(keys, delete)] ==>
            (k in r.deleted <==> delete(k) == Done) && (k in r.failed <==> delete(k).Raised?))
      && (forall k :: k in r.store <==>
            k in store && !(k in keys[..Processed(keys, delete)] && delete(k) == Done))
    decreases |keys|
  {
    if keys != [] && !Aborts(delete, keys[0]) {
      var k := keys[0];
      var n := Processed(keys, delete);
      assert keys[..n] == [k] + keys[1..][..n - 1];
      if delete(k) == Done {
        CleanupStopsAtAbort(store - {k}, keys[1..], delete);
      } else {
        CleanupStopsAtAbort(store, keys[1..], delete);
      }
    }
  }
}

=== FILE: text.dfy ===
/**
 The handful of Python `str` methods the scripts rely on, with their meaning
 stated as contracts or as lemmas about them: `startswith`, `strip`, `replace` (all occurrences and
 first occurrence), `split(c)[0]`, `lower` on ASCII and single-character
 replacement.
 */
module Text {

  predicate StartsWith(s: string, prefix: string)
  {
    |prefix| <= |s| && s[..|prefix|] == prefix
  }

  predicate EndsWith(s: string, suffix: string)
  {
    |suffix| <= |s| && s[|s| - |suffix|..] == suffix
  }

  /** True when `pat` occurs in `s` starting at index `i`. */
  predicate OccursAt(s: string, pat: string, i: int)
  {
    0 <= i && i + |pat| <= |s| && s[i..i + |pat|] == pat
  }

  /** `s.lstrip(chars)`: the longest suffix of `s` whose first character is not in `cs`. */
  function TrimLeft(s: string, cs: set<char>): (r: string)
    ensures |r| <= |s| && r == s[|s| - |r|..]
    ensures forall k :: 0 <= k < |s| - |r| ==> s[k] in cs
    ensures r == [] || r[0] !in cs
    decreases |s|
  {
    if |s| > 0 && s[0] in cs then TrimLeft(s[1..], cs) else s
  }

  /** `s.rstrip(chars)`: the longest prefix of `s` whose last character is not in `cs`. */
  function TrimRight(s: string, cs: set<char>): (r: string)
    ensures |r| <= |s| && r == s[..|r|]
    ensures forall k :: |r| <= k < |s| ==> s[k] in cs
    ensures r == [] || r[|r| - 1] !in cs
    decreases |s|
  {
    if |s| > 0 && s[|s| - 1] in cs then TrimRight(s[..|s| - 1], cs) else s
  }

  /** `s.strip(chars)`. */
  function Trim(s: string, cs: set<char>): string
  {
    TrimRight(TrimLeft(s, cs), cs)
  }

  /** A string whose ends are not strippable is left alone by `strip`. */
  lemma TrimUnchanged(s: string, cs: set<char>)
    requires s == [] || (s[0] !in cs && s[|s| - 1] !in cs)
    ensures Trim(s, cs) == s
  {
  }

  /** `lstrip` removes leading padding made of strippable characters and
      stops at the first character that is not strippable. */
  lemma {:induction false} TrimLeftPad(w: string, t: string, cs: set<char>)
    requires forall c :: c in w ==> c in cs
    requires t == [] || t[0] !in cs
    ensures TrimLeft(w + t, cs) == t
    decreases |w|
  {
    if w == [] {
      assert w + t == t;
    } else {
      assert (w + t)[0] == w[0];
      assert (w + t)[1..] == w[1..] + t;
      TrimLeftPad(w[1..], t, cs);
    }
  }

  /** `rstrip` removes trailing padding made of strippable characters and
      stops at the last character that is not strippable. */
  lemma {:induction false} TrimRightPad(t: string, w: string, cs: set<char>)
    requires forall c :: c in w ==> c in cs
    requires t == [] || t[|t| - 1] !in cs
    ensures TrimRight(t + w, cs) == t
    decreases |w|
  {
    if w == [] {
      assert t + w == t;
    } else {
      var u := w[..|w| - 1];
      assert (t + w)[|t + w| - 1] == w[|w| - 1];
      assert (t + w)[..|t + w| - 1] == t + u;
      assert forall c :: c in u ==> c in w;
      TrimRightPad(t, u, cs);
    }
  }

  /** `strip` removes padding of strippable characters on both sides of a
      string whose ends are not strippable. */
  lemma TrimPad(w1: string, t: string, w2: string, cs: set<char>)
    requires forall c :: c in w1 + w2 ==> c in cs
    requires t == [] || (t[0] !in cs && t[|t| - 1] !in cs)
    ensures Trim(w1 + t + w2, cs) == t
  {
    assert forall c :: c in w1 ==> c in w1 + w2;
    assert forall c :: c in w2 ==> c in w1 + w2;
    if t == [] {
      assert w1 + t + w2 == (w1 + w2) + [];
      TrimLeftPad(w1 + w2, [], cs);
    } else {
      assert w1 + t + w2 == w1 + (t + w2);
      assert (t + w2)[0] == t[0];
      TrimLeftPad(w1, t + w2, cs);
      TrimRightPad(t, w2, cs);
    }
  }

  /** `pat` occurs nowhere in `s` before index `i`. */
  predicate NoneBefore(s: string, pat: string, i: int)
  {
    forall j :: 0 <= j < i ==> !OccursAt(s, pat, j)
  }

  /** How occurrences in `s` and in `s[1..]` correspond. */
  lemma OccursShift(s: string, pat: string)
    requires |s| > 0
    ensures forall i :: 1 <= i ==> (OccursAt(s, pat, i) <==> OccursAt(s[1..], pat, i - 1))
    ensures forall i :: 1 <= i ==> (NoneBefore(s, pat, i) <==> !OccursAt(s, pat, 0) && NoneBefore(s[1..], pat, i - 1))
    ensures forall i :: 1 <= i <= |s| ==> s[..i] == [s[0]] + s[1..][..i - 1] && s[i..] == s[1..][i - 1..]
  {
    forall i | 1 <= i
      ensures OccursAt(s, pat, i) <==> OccursAt(s[1..], pat, i - 1)
    {
      if i + |pat| <= |s| {
        assert s[1..][i - 1..i - 1 + |pat|] == s[i..i + |pat|];
      }
    }
    forall i | 1 <= i
      ensures NoneBefore(s, pat, i) <==> !OccursAt(s, pat, 0) && NoneBefore(s[1..], pat, i - 1)
    {
      if NoneBefore(s, pat, i) {
        forall j | 0 <= j < i - 1 ensures !OccursAt(s[1..], pat, j) {
          assert !OccursAt(s, pat, j + 1);
        }
      }
      if !OccursAt(s, pat, 0) && NoneBefore(s[1..], pat, i - 1) {
        forall j | 1 <= j < i ensures !OccursAt(s, pat, j) {
          assert !OccursAt(s[1..], pat, j - 1);
        }
      }
    }
  }

  /** The index of the leftmost occurrence of `pat` in `s`, or `|s|` when
      there is none. */
  function FirstOccurrence(s: string, pat: string): (n: nat)
    requires |pat| > 0
    ensures n == |s| || OccursAt(s, pat, n)
    ensures NoneBefore(s, pat, n)
    decreases |s|
  {
    if |s| < |pat| then |s|
    else if StartsWith(s, pat) then 0
    else
      OccursShift(s, pat);
      1 + FirstOccurrence(s[1..], pat)
  }

  /** `s.replace(pat, rep)`: every non-overlapping occurrence of `pat`,
      scanning from the left, is replaced. Replacing `pat` by itself changes
      nothing, and a replacement of the same length keeps the length;
      `ReplaceAllNoMatch` and `ReplaceAllAtFirst` pin the result down. */
  function ReplaceAll(s: string, pat: string, rep: string): (r: string)
    requires |pat| > 0
    ensures rep == pat ==> r == s
    ensures |rep| == |pat| ==> |r| == |s|
    decreases |s|
  {
    if |s| < |pat| then s
    else if StartsWith(s, pat) then
      assert s == s[..|pat|] + s[|pat|..];
      rep + ReplaceAll(s[|pat|..], pat, rep)
    else [s[0]] + ReplaceAll(s[1..], pat, rep)
  }

  /** At the leftmost occurrence of `pat`, `replace` keeps the text before
      it, writes `rep` and goes on with the rest of the string, which it never
      rescans together with `rep`. */
  lemma {:induction false} ReplaceAllAtFirst(p: string, pat: string, q: string, rep: string)
    requires |pat| > 0 && NoneBefore(p + pat + q, pat, |p|)
    ensures ReplaceAll(p + pat + q, pat, rep) == p + rep + ReplaceAll(q, pat, rep)
    decreases |p|
  {
    var s := p + pat + q;
    if p == [] {
      assert s == pat + q && StartsWith(s, pat) && s[|pat|..] == q;
    } else {
      NoneBeforeTail(s, pat, |p|);
      var t := p[1..] + pat + q;
      assert s[1..] == t;
      ReplaceAllAtFirst(p[1..], pat, q, rep);
      var y := ReplaceAll(q, pat, rep);
      calc {
        ReplaceAll(s, pat, rep);
        [s[0]] + ReplaceAll(t, pat, rep);
        [p[0]] + (p[1..] + rep + y);
        { assert p == [p[0]] + p[1..]; }
        p + rep + y;
      }
    }
  }

  /** No occurrence before `i` in `s` means none before `i - 1` in its tail,
      and none at its start. */
  lemma NoneBeforeTail(s: string, pat: string, i: int)
    requires |s| > 0 && i >= 1 && NoneBefore(s, pat, i)
    ensures NoneBefore(s[1..], pat, i - 1) && !StartsWith(s, pat)
  {
    assert !OccursAt(s, pat, 0);
    forall j | 0 <= j < i - 1 ensures !OccursAt(s[1..], pat, j) {
      assert !OccursAt(s, pat, j + 1);
      if j + |pat| <= |s| - 1 {
        assert s[1..][j..j + |pat|] == s[j + 1..j + 1 + |pat|];
      }
    }
  }

  /** A string in which `pat` never occurs is left alone by `replace`. */
  lemma {:induction false} ReplaceAllNoMatch(s: string, pat: string, rep: string)
    requires |pat| > 0
    requires forall i :: 0 <= i <= |s| - |pat| ==> !OccursAt(s, pat, i)
    ensures ReplaceAll(s, pat, rep) == s
    decreases |s|
  {
    if |s| >= |pat| {
      assert !OccursAt(s, pat, 0);
      forall i | 0 <= i <= |s[1..]| - |pat|
        ensures !OccursAt(s[1..], pat, i)
      {
        assert s[1..][i..i + |pat|] == s[i + 1..i + 1 + |pat|];
        assert !OccursAt(s, pat, i + 1);
      }
      ReplaceAllNoMatch(s[1..], pat, rep);
    }
  }

  /** In particular, `replace` leaves alone a string lacking one of the pattern's characters. */
  lemma ReplaceAllMissingChar(s: string, pat: string, rep: string, c: char)
    requires |pat| > 0 && c in pat && c !in s
    ensures ReplaceAll(s, pat, rep) == s
  {
    forall i | 0 <= i <= |s| - |pat|
      ensures !OccursAt(s, pat, i)
    {
      var j :| 0 <= j < |pat| && pat[j] == c;
      assert s[i..i + |pat|][j] == s[i + j] != c;
    }
    ReplaceAllNoMatch(s, pat, rep);
  }

  /** `s.replace(pat, rep, 1)`: only the leftmost occurrence is replaced. */
  function ReplaceFirst(s: string, pat: string, rep: string): (r: string)
    requires |pat| > 0
    ensures FirstOccurrence(s, pat) == |s| ==> r == s
    ensures FirstOccurrence(s, pat) < |s| ==>
      r == s[..FirstOccurrence(s, pat)] + rep + s[FirstOccurrence(s, pat) + |pat|..]
    decreases |s|
  {
    if |s| < |pat| then s
    else if StartsWith(s, pat) then
      assert s[..0] == [];
      rep + s[|pat|..]
    else
      var u := s[1..];
      var i := FirstOccurrence(u, pat);
      FirstOccurrenceTail(s, pat);
      assert s == [s[0]] + u;
      if i < |u| then
        ConsSplice(s[0], u, i, |pat|, rep);
        [s[0]] + ReplaceFirst(u, pat, rep)
      else
        [s[0]] + ReplaceFirst(u, pat, rep)
  }

  /** Past a first character where `pat` does not start, the leftmost
      occurrence is one further on than in the rest of the string. */
  lemma FirstOccurrenceTail(s: string, pat: string)
    requires |pat| > 0 && |s| >= |pat| && !StartsWith(s, pat)
    ensures FirstOccurrence(s, pat) == 1 + FirstOccurrence(s[1..], pat)
  {
  }

  /** Splicing `rep` into a sequence after its first element. */
  lemma ConsSplice<T>(x: T, u: seq<T>, i: nat, m: nat, rep: seq<T>)
    requires i + m <= |u|
    ensures [x] + (u[..i] + rep + u[i + m..]) == ([x] + u)[..i + 1] + rep + ([x] + u)[i + 1 + m..]
  {
    assert ([x] + u)[..i + 1] == [x] + u[..i];
    assert ([x] + u)[i + 1 + m..] == u[i + m..];
    Regroup4([x], u[..i], rep, u[i + m..]);
  }

  /** Regrouping a concatenation of four sequences. */
  lemma Regroup4<T>(a: seq<T>, b: seq<T>, c: seq<T>, d: seq<T>)
    ensures a + (b + c + d) == a + b + c + d
  {
  }

  /** `s.split(c)[0]`: everything before the first `c`, or all of `s`. */
  function PrefixBefore(s: string, c: char): (r: string)
    ensures |r| <= |s| && r == s[..|r|]
    ensures c !in r
    ensures |r| == |s| || s[|r|] == c
    decreases |s|
  {
    if |s| == 0 || s[0] == c then [] else [s[0]] + PrefixBefore(s[1..], c)
  }

  /** The three conditions on `PrefixBefore` pin its result down. */
  lemma PrefixBeforeUnique(s: string, c: char, p: string)
    requires |p| <= |s| && p == s[..|p|]
    requires c !in p
    requires |p| == |s| || s[|p|] == c
    ensures PrefixBefore(s, c) == p
  {
    var q := PrefixBefore(s, c);
    forall k | 0 <= k < |p| ensures s[k] != c {
      assert s[k] == p[k];
    }
    forall k | 0 <= k < |q| ensures s[k] != c {
      assert s[k] == q[k];
    }
  }

  /** `s.replace(a, b)` for single characters. */
  function ReplaceChar(s: string, a: char, b: char): (r: string)
    ensures |r| == |s|
    ensures forall i :: 0 <= i < |s| && s[i] != a ==> r[i] == s[i]
    ensures forall i :: 0 <= i < |s| && s[i] == a ==> r[i] == b
    ensures a != b ==> a !in r
  {
    seq(|s|, i requires 0 <= i < |s| => if s[i] == a then b else s[i])
  }

  function LowerChar(c: char): char
  {
    if 'A' <= c <= 'Z' then (c as int - 'A' as int + 'a' as int) as char else c
  }

  /** `s.lower()` on ASCII text. */
  function Lower(s: string): (r: string)
    ensures |r| == |s|
    ensures forall i :: 0 <= i < |s| && !('A' <= s[i] <= 'Z') ==> r[i] == s[i]
    ensures forall i :: 0 <= i < |s| && 'A' <= s[i] <= 'Z' ==> r[i] as int == s[i] as int + 32
    ensures forall i :: 0 <= i < |r| ==> !('A' <= r[i] <= 'Z')
  {
    seq(|s|, i requires 0 <= i < |s| => LowerChar(s[i]))
  }
}

=== FILE: verify_run.dfy ===
/**
 `main` of the S3 verification script (0_verify_s3.py:113-158): three
 connection scenarios, each creating a folder marker and a file and reading
 the file back; then a listing of the bucket and the deletion of every key a
 successful scenario created. The S3 service is a set of reply functions.
 */
module VerifyRun {
  import opened Common
  import opened EnvConfig
  import opened ClientModes
  import opened ObjectTasks

  datatype Scenario = Scenario(mode: string, content: Bytes)

  /** The three scenarios, in the order the script runs them. */
  const Scenarios: seq<Scenario> := [
    Scenario(TlsDefault, Latin1("Content for TLS default connection.")),
    Scenario(TlsCustomBundle, Latin1("Content for TLS with custom certificate bundle.")),
    Scenario(HttpConnection, Latin1("Content for HTTP connection."))
  ]

  /** The folder a scenario works in. */
  function Folder(mode: string): string
  {
    "test/" + mode + "/"
  }

  /** The S3 service: whether a client with given settings can be constructed,
      and the replies such a client gets. Listing sees the bucket's contents. */
  datatype Service = Service(
    build: ClientSpec -> ClientBuild,
    tasks: (ClientSpec, string) -> TaskReplies,
    listing: (ClientSpec, Store) -> Listing,
    delete: (ClientSpec, string) -> Reply)

  /** The state of the scenario loop: the bucket, `created_keys`, and whether
      a `SystemExit` has ended the process. */
  datatype Progress = Progress(store: Store, created: seq<string>, exited: bool)

  /** What `create_s3_client(config, mode)` yields for each mode; the
      configuration and the environment are fixed for a run. */
  type Clients = string -> ClientResult

  function ClientsOf(config: Config, env: Env, svc: Service): Clients
    requires EndpointKey in config
  {
    mode => CreateS3Client(config, mode, env, svc.build)
  }

  /** A scenario whose client constructor ends the process. */
  predicate Exits(sc: Scenario, clients: Clients)
  {
    clients(sc.mode).Exit?
  }

  /** A scenario succeeds when its client is built, every call succeeds and the
      download returns the uploaded bytes. */
  predicate Succeeds(sc: Scenario, clients: Clients, svc: Service)
  {
    var c := clients(sc.mode);
    var replies := if c.Client? then svc.tasks(c.spec, Folder(sc.mode)) else TaskReplies(Done, Done, Downloaded([]));
    c.Client? && replies.put == Done && replies.upload == Done && replies.download == Downloaded(sc.content)
  }

  /** The keys a scenario is expected to add to `created_keys`. */
  function KeysOf(sc: Scenario, clients: Clients, svc: Service): seq<string>
  {
    if Succeeds(sc, clients, svc) then [Folder(sc.mode), FileKey(Folder(sc.mode))] else []
  }

  /** One pass of the scenario loop. An exception other than `SystemExit`
      skips the scenario's bookkeeping. */
  function RunScenario(p: Progress, sc: Scenario, clients: Clients, svc: Service): (q: Progress)
    ensures p.created <= q.created
    ensures |q.created| == |p.created| || |q.created| == |p.created| + 2
    ensures p.store.Keys <= q.store.Keys
  {
    match clients(sc.mode)
    case Exit(_) => p.(exited := true)
    case ClientRaised(_) => p
    case Client(spec) =>
      var folder := Folder(sc.mode);
      var run := PerformTasks(p.store, folder, sc.content, svc.tasks(spec, folder));
      Progress(run.store, p.created + (if run.result.Success? then [folder, run.result.value] else []), false)
  }

  /** The scenario loop over `scs`, stopping at a `SystemExit`. Each scenario
      adds two keys to `created_keys` or none. */
  function RunScenarios(store: Store, scs: seq<Scenario>, clients: Clients, svc: Service): (p: Progress)
    ensures |p.created| <= 2 * |scs|
    decreases |scs|
  {
    if scs == [] then Progress(store, [], false)
    else
      var p := RunScenarios(store, scs[..|scs| - 1], clients, svc);
      if p.exited then p else RunScenario(p, scs[|scs| - 1], clients, svc)
  }

  /** `created_keys` grows by exactly `[folder, file_key]` for a successful
      scenario and by nothing otherwise; the process ends exactly when the
      client constructor raises an SDK error. */
  lemma ScenarioBookkeeping(p: Progress, sc: Scenario, clients: Clients, svc: Service)
    requires !p.exited
    ensures var q := RunScenario(p, sc, clients, svc);
      && (q.exited <==> Exits(sc, clients))
      && (!q.exited ==> q.created == p.created + KeysOf(sc, clients, svc))
  {
  }

  /** The bucket only gains keys, and only the scenario's folder and file key
      change. */
  lemma ScenarioStore(p: Progress, sc: Scenario, clients: Clients, svc: Service)
    ensures var q := RunScenario(p, sc, clients, svc);
      && p.store.Keys <= q.store.Keys
      && (forall k :: k in q.store && k != Folder(sc.mode) && k != FileKey(Folder(sc.mode)) ==>
            k in p.store && q.store[k] == p.store[k])
  {
  }

  /** Some scenario of `scs` ends the process. */
  ghost predicate SomeExits(scs: seq<Scenario>, clients: Clients)
  {
    exists i :: 0 <= i < |scs| && Exits(scs[i], clients)
  }

  lemma SomeExitsSnoc(scs: seq<Scenario>, clients: Clients)
    requires |scs| > 0
    ensures SomeExits(scs, clients) <==>
      SomeExits(scs[..|scs| - 1], clients) || Exits(scs[|scs| - 1], clients)
  {
    var init := scs[..|scs| - 1];
    if SomeExits(scs, clients) {
      var i :| 0 <= i < |scs| && Exits(scs[i], clients);
      if i < |init| {
        assert init[i] == scs[i];
      }
    }
    if SomeExits(init, clients) {
      var i :| 0 <= i < |init| && Exits(init[i], clients);
      assert init[i] == scs[i];
    }
  }

  /** The loop ends the process exactly when some scenario's client
      constructor raised an SDK error. */
  lemma {:induction false} ScenarioLoopExit(store: Store, scs: seq<Scenario>, clients: Clients, svc: Service)
    ensures RunScenarios(store, scs, clients, svc).exited <==> SomeExits(scs, clients)
    decreases |scs|
  {
    if scs != [] {
      var init := scs[..|scs| - 1];
      var p := RunScenarios(store, init, clients, svc);
      ScenarioLoopExit(store, init, clients, svc);
      SomeExitsSnoc(scs, clients);
      if !p.exited {
        ScenarioBookkeeping(p, scs[|scs| - 1], clients, svc);
      }
    }
  }

  /** `k` is the folder marker or the file of a scenario of `scs` that succeeded. */
  ghost predicate CreatedBy(scs: seq<Scenario>, clients: Clients, svc: Service, k: string)
  {
    exists i :: 0 <= i < |scs| && Succeeds(scs[i], clients, svc) &&
      (k == Folder(scs[i].mode) || k == FileKey(Folder(scs[i].mode)))
  }

  /** The scenario touches `k`: its folder marker or its file. */
  ghost predicate Touched(scs: seq<Scenario>, k: string)
  {
    exists i :: 0 <= i < |scs| && (k == Folder(scs[i].mode) || k == FileKey(Folder(scs[i].mode)))
  }

  lemma CreatedByIsTouched(scs: seq<Scenario>, clients: Clients, svc: Service, k: string)
    ensures CreatedBy(scs, clients, svc, k) ==> Touched(scs, k)
  {
  }

  lemma GrowCreatedBy(scs: seq<Scenario>, clients: Clients, svc: Service, k: string)
    requires |scs| > 0 && CreatedBy(scs[..|scs| - 1], clients, svc, k)
    ensures CreatedBy(scs, clients, svc, k)
  {
    var init := scs[..|scs| - 1];
    var i :| 0 <= i < |init| && Succeeds(init[i], clients, svc) &&
      (k == Folder(init[i].mode) || k == FileKey(Folder(init[i].mode)));
    assert scs[i] == init[i];
  }

  lemma GrowTouched(scs: seq<Scenario>, k: string)
    requires |scs| > 0 && Touched(scs[..|scs| - 1], k)
    ensures Touched(scs, k)
  {
    var init := scs[..|scs| - 1];
    var i :| 0 <= i < |init| && (k == Folder(init[i].mode) || k == FileKey(Folder(init[i].mode)));
    assert scs[i] == init[i];
  }

  /** What one scenario adds to `created_keys`: its own folder and file key,
      both in the bucket, and only when it succeeds. */
  lemma ScenarioAdds(p: Progress, sc: Scenario, clients: Clients, svc: Service)
    requires !p.exited
    ensures var q := RunScenario(p, sc, clients, svc);
      forall k :: k in q.created && k !in p.created ==>
        Succeeds(sc, clients, svc) && k in q.store && (k == Folder(sc.mode) || k == FileKey(Folder(sc.mode)))
  {
    ScenarioBookkeeping(p, sc, clients, svc);
  }

  /** The bucket only gains keys over the loop. */
  lemma {:induction false} ScenarioLoopGrows(store: Store, scs: seq<Scenario>, clients: Clients, svc: Service)
    ensures store.Keys <= RunScenarios(store, scs, clients, svc).store.Keys
    decreases |scs|
  {
    if scs != [] {
      var p := RunScenarios(store, scs[..|scs| - 1], clients, svc);
      ScenarioLoopGrows(store, scs[..|scs| - 1], clients, svc);
      ScenarioStore(p, scs[|scs| - 1], clients, svc);
    }
  }

  /** Every created key is in the bucket. */
  lemma {:induction false} ScenarioLoopCreatedStored(store: Store, scs: seq<Scenario>, clients: Clients, svc: Service)
    ensures forall k :: k in RunScenarios(store, scs, clients, svc).created ==> k in RunScenarios(store, scs, clients, svc).store
    decreases |scs|
  {
    if scs != [] {
      var p := RunScenarios(store, scs[..|scs| - 1], clients, svc);
      ScenarioLoopCreatedStored(store, scs[..|scs| - 1], clients, svc);
      if !p.exited {
        ScenarioAdds(p, scs[|scs| - 1], clients, svc);
        ScenarioStore(p, scs[|scs| - 1], clients, svc);
      }
    }
  }

  /** Every created key comes from a scenario that succeeded. */
  lemma {:induction false} ScenarioLoopCreatedBy(store: Store, scs: seq<Scenario>, clients: Clients, svc: Service)
    ensures forall k :: k in RunScenarios(store, scs, clients, svc).created ==> CreatedBy(scs, clients, svc, k)
    decreases |scs|
  {
    if scs != [] {
      var init := scs[..|scs| - 1];
      var p := RunScenarios(store, init, clients, svc);
      ScenarioLoopCreatedBy(store, init, clients, svc);
      forall k | k in RunScenarios(store, scs, clients, svc).created ensures CreatedBy(scs, clients, svc, k) {
        if k in p.created {
          GrowCreatedBy(scs, clients, svc, k);
        } else {
          ScenarioAdds(p, scs[|scs| - 1], clients, svc);
        }
      }
    }
  }

  /** Objects no scenario touches keep their contents over the loop. */
  lemma {:induction false} ScenarioLoopKeeps(store: Store, scs: seq<Scenario>, clients: Clients, svc: Service)
    ensures var p := RunScenarios(store, scs, clients, svc);
      forall k :: k in p.store && !Touched(scs, k) ==> k in store && p.store[k] == store[k]
    decreases |scs|
  {
    if scs != [] {
      var p := RunScenarios(store, scs[..|scs| - 1], clients, svc);
      ScenarioLoopKeeps(store, scs[..|scs| - 1], clients, svc);
      ScenarioStore(p, scs[|scs| - 1], clients, svc);
      forall k | k in RunScenarios(store, scs, clients, svc).store && !Touched(scs, k)
        ensures k in store && RunScenarios(store, scs, clients, svc).store[k] == store[k]
      {
        if Touched(scs[..|scs| - 1], k) {
          GrowTouched(scs, k);
        }
        var sc := scs[|scs| - 1];
        assert k != Folder(sc.mode) && k != FileKey(Folder(sc.mode));
      }
    }
  }

  /** The three facts about the bucket and `created_keys` after the loop. */
  lemma ScenarioLoopStore(store: Store, scs: seq<Scenario>, clients: Clients, svc: Service)
    ensures var p := RunScenarios(store, scs, clients, svc);
      && store.Keys <= p.store.Keys
      && (forall k :: k in p.created ==> k in p.store && CreatedBy(scs, clients, svc, k))
      && (forall k :: k in p.store && !Touched(scs, k) ==> k in store && p.store[k] == store[k])
  {
    ScenarioLoopGrows(store, scs, clients, svc);
    ScenarioLoopCreatedStored(store, scs, clients, svc);
    ScenarioLoopCreatedBy(store, scs, clients, svc);
    ScenarioLoopKeeps(store, scs, clients, svc);
  }

  /** The keys the successful scenarios of `scs` create, in scenario order. */
  function CreatedKeysOf(scs: seq<Scenario>, clients: Clients, svc: Service): seq<string>
    decreases |scs|
  {
    if scs == [] then [] else CreatedKeysOf(scs[..|scs| - 1], clients, svc) + KeysOf(scs[|scs| - 1], clients, svc)
  }

  /** Without a `SystemExit`, `created_keys` after the loop is the successful
      scenarios' keys in order. */
  lemma {:induction false} ScenarioLoopCreated(store: Store, scs: seq<Scenario>, clients: Clients, svc: Service)
    requires !SomeExits(scs, clients)
    ensures !RunScenarios(store, scs, clients, svc).exited
    ensures RunScenarios(store, scs, clients, svc).created == CreatedKeysOf(scs, clients, svc)
    decreases |scs|
  {
    if scs != [] {
      var init := scs[..|scs| - 1];
      SomeExitsSnoc(scs, clients);
      ScenarioLoopCreated(store, init, clients, svc);
      ScenarioBookkeeping(RunScenarios(store, init, clients, svc), scs[|scs| - 1], clients, svc);
    }
  }

  /** How the script ended: normally, at the missing-variable exit, or at a
      `SystemExit` from a client constructor. */
  datatype RunEnd = Finished | MissingVariables(names: seq<string>) | ClientExit

  /** A run of the script: the bucket afterwards, `created_keys`, the listing
      printed (absent when listing failed) and the cleanup record (absent when
      cleanup did not start). */
  datatype Report = Report(store: Store, created: seq<string>, listed: Option<seq<string>>, cleanup: Option<CleanupRun>, outcome: RunEnd)

  /** The listing section: a new `tls_default` client, then `list_all_files`. */
  function ListingStage(store: Store, clients: Clients, svc: Service): Result<Option<seq<string>>, RunEnd>
  {
    match clients(TlsDefault)
    case Exit(_) => Failure(ClientExit)
    case ClientRaised(_) => Success(None)
    case Client(spec) =>
      match ListAllFiles(svc.listing(spec, store))
      case Success(files) => Success(Some(files))
      case Failure(_) => Success(None)
  }

  /** Everything after the configuration was read. The cleanup runs only in
      a run that finishes normally. */
  function RunWithConfig(store: Store, clients: Clients, svc: Service): (r: Report)
    ensures !r.outcome.MissingVariables?
    ensures r.cleanup.Some? ==> r.outcome == Finished
  {
    var p := RunScenarios(store, Scenarios, clients, svc);
    if p.exited then Report(p.store, p.created, None, None, ClientExit)
    else
      match ListingStage(p.store, clients, svc)
      case Failure(outcome) => Report(p.store, p.created, None, None, outcome)
      case Success(listed) =>
        match clients(TlsDefault)
        case Exit(_) => Report(p.store, p.created, listed, None, ClientExit)
        case ClientRaised(_) => Report(p.store, p.created, listed, None, Finished)
        case Client(spec) =>
          var c := Cleanup(p.store, p.created, k => svc.delete(spec, k));
          Report(c.store, p.created, listed, Some(c), Finished)
  }

  /** The whole script. It stops at the configuration exactly when a
      required variable is missing, and then the bucket is untouched. */
  function VerifyS3(env: Env, store: Store, svc: Service): (r: Report)
    ensures r.outcome.MissingVariables? <==> exists n :: n in RequiredVars && n !in env
    ensures r.outcome.MissingVariables? ==> r.store == store && r.created == []
  {
    match GetAwsConfig(env)
    case Failure(missing) => Report(store, [], None, None, MissingVariables(missing))
    case Success(config) => RunWithConfig(store, ClientsOf(config, env, svc), svc)
  }

  /** The three scenarios run one after the other when none of them ends the
      process. */
  lemma UnrollScenarios(store: Store, clients: Clients, svc: Service)
    requires !SomeExits(Scenarios, clients)
    ensures var p1 := RunScenario(Progress(store, [], false), Scenarios[0], clients, svc);
      var p2 := RunScenario(p1, Scenarios[1], clients, svc);
      && !p1.exited && !p2.exited
      && RunScenarios(store, Scenarios, clients, svc) == RunScenario(p2, Scenarios[2], clients, svc)
  {
    var s := Scenarios;
    assert !Exits(s[0], clients) && !Exits(s[1], clients) && !Exits(s[2], clients);
    assert s[..3] == s && s[..2][..1] == s[..1] && s[..3][..2] == s[..2] && s[..1][..0] == [];
    var p0 := Progress(store, [], false);
    assert RunScenarios(store, s[..0], clients, svc) == p0;
    var p1 := RunScenario(p0, s[0], clients, svc);
    ScenarioBookkeeping(p0, s[0], clients, svc);
    assert RunScenarios(store, s[..1], clients, svc) == p1;
    var p2 := RunScenario(p1, s[1], clients, svc);
    ScenarioBookkeeping(p1, s[1], clients, svc);
    assert RunScenarios(store, s[..2], clients, svc) == p2;
  }

  /** A run whose configuration is complete ends at a `SystemExit` exactly
      when a scenario's client constructor raises an SDK error; then there is
      no listing and no cleanup, so nothing is deleted. */
  lemma ScenarioExitSkipsCleanup(store: Store, clients: Clients, svc: Service)
    requires SomeExits(Scenarios, clients)
    ensures var r := RunWithConfig(store, clients, svc);
      r.outcome == ClientExit && r.listed == None && r.cleanup == None && store.Keys <= r.store.Keys
  {
    ScenarioLoopExit(store, Scenarios, clients, svc);
    ScenarioLoopStore(store, Scenarios, clients, svc);
  }

  /** `created_keys` holds `[folder, file_key]` of every successful scenario,
      in scenario order, and nothing else: a failed scenario does not stop
      the later ones. */
  lemma CreatedKeys(store: Store, clients: Clients, svc: Service)
    requires !SomeExits(Scenarios, clients)
    ensures RunWithConfig(store, clients, svc).created ==
      KeysOf(Scenarios[0], clients, svc) + KeysOf(Scenarios[1], clients, svc) + KeysOf(Scenarios[2], clients, svc)
  {
    var s := Scenarios;
    ScenarioLoopCreated(store, s, clients, svc);
    RunKeepsCreated(store, clients, svc);
    assert s[..3] == s && s[..3][..2] == s[..2] && s[..2][..1] == s[..1] && s[..1][..0] == [];
    assert CreatedKeysOf(s[..1], clients, svc) == KeysOf(s[0], clients, svc);
    assert CreatedKeysOf(s[..2], clients, svc) == KeysOf(s[0], clients, svc) + KeysOf(s[1], clients, svc);
  }

  /** The listing and cleanup stages leave `created_keys` alone. */
  lemma RunKeepsCreated(store: Store, clients: Clients, svc: Service)
    ensures RunWithConfig(store, clients, svc).created == RunScenarios(store, Scenarios, clients, svc).created
  {
  }

  /** When the cleanup client is built and no deletion raises a foreign
      exception, exactly the created keys whose deletion succeeded are gone;
      objects no scenario touched keep their contents. */
  lemma CleanupOutcome(store: Store, clients: Clients, svc: Service)
    requires !SomeExits(Scenarios, clients) && clients(TlsDefault).Client?
    requires var p := RunScenarios(store, Scenarios, clients, svc);
      forall k :: k in p.created ==> !Aborts(k' => svc.delete(clients(TlsDefault).spec, k'), k)
    ensures var r := RunWithConfig(store, clients, svc);
      && r.outcome == Finished && r.cleanup.Some? && r.cleanup.value.aborted == None
      && (forall k :: k in r.created ==> (k in r.store <==> svc.delete(clients(TlsDefault).spec, k) != Done))
      && (forall k :: k in store && !Touched(Scenarios, k) ==> k in r.store && r.store[k] == store[k])
  {
    var p := RunScenarios(store, Scenarios, clients, svc);
    ScenarioLoopExit(store, Scenarios, clients, svc);
    ScenarioLoopStore(store, Scenarios, clients, svc);
    var spec := clients(TlsDefault).spec;
    var del := k => svc.delete(spec, k);
    var c := Cleanup(p.store, p.created, del);
    assert RunWithConfig(store, clients, svc).store == c.store;
    forall k | k in store && !Touched(Scenarios, k) ensures k in c.store && c.store[k] == store[k] {
      assert k in p.store;
      CreatedByIsTouched(Scenarios, clients, svc, k);
    }
  }

  /** With every deletion succeeding, no created key survives the run. */
  lemma NothingCreatedSurvives(store: Store, clients: Clients, svc: Service)
    requires !SomeExits(Scenarios, clients) && clients(TlsDefault).Client?
    requires forall k :: svc.delete(clients(TlsDefault).spec, k) == Done
    ensures var r := RunWithConfig(store, clients, svc);
      forall k :: k in r.created ==> k !in r.store
  {
    CleanupOutcome(store, clients, svc);
  }

  /** A listing that shows the bucket as it stands after the scenarios
      includes every created key. */
  lemma ListingShowsCreated(store: Store, clients: Clients, svc: Service)
    requires !SomeExits(Scenarios, clients) && clients(TlsDefault).Client?
    requires var p := RunScenarios(store, Scenarios, clients, svc);
      ListsStore(svc.listing(clients(TlsDefault).spec, p.store), p.store)
    ensures var r := RunWithConfig(store, clients, svc);
      r.listed.Some? && forall k :: k in r.created ==> k in r.listed.value
  {
    ScenarioLoopExit(store, Scenarios, clients, svc);
    ScenarioLoopStore(store, Scenarios, clients, svc);
  }

  /** The script stops before any S3 call when a required variable is
      missing, and reports exactly the missing names. */
  lemma MissingVariablesStop(env: Env, store: Store, svc: Service)
    ensures var r := VerifyS3(env, store, svc);
      && (r.outcome.MissingVariables? <==> exists n :: n in RequiredVars && n !in env)
      && (r.outcome.MissingVariables? ==>
            && r.outcome.names == Missing(RequiredVars, env)
            && r.store == store && r.created == [] && r.listed == None && r.cleanup == None)
  {
    MissingReported(env);
    var c := GetAwsConfig(env);
    if c.Success? {
      var p := RunScenarios(store, Scenarios, ClientsOf(c.value, env, svc), svc);
    }
  }

  lemma FolderInjective(m1: string, m2: string)
    ensures Folder(m1) == Folder(m2) ==> m1 == m2
  {
    if Folder(m1) == Folder(m2) {
      assert m1 == Folder(m1)[5..|Folder(m1)| - 1];
      assert m2 == Folder(m2)[5..|Folder(m2)| - 1];
    }
  }

  /** A folder marker ends in `/`, a file key in `.txt`. */
  lemma FolderIsNoFileKey(m: string, f: string)
    ensures Folder(m) != FileKey(f)
  {
    var k := FileKey(f);
    assert k[|k| - 1] == 't' by {
      assert k[|k| - 4..] == ".txt";
    }
    assert Folder(m)[|Folder(m)| - 1] == '/';
  }

  lemma ScenarioModesDistinct()
    ensures forall a, b :: 0 <= a < 3 && 0 <= b < 3 && Scenarios[a].mode == Scenarios[b].mode ==> a == b
  {
    assert |Scenarios[0].mode| == 11 && |Scenarios[1].mode| == 17 && |Scenarios[2].mode| == 15;
  }

  /** A marker written by scenario `i` is still there after the loop. */
  lemma MarkerSurvivesLoop(store: Store, clients: Clients, svc: Service, i: int)
    requires 0 <= i < 3 && !SomeExits(Scenarios, clients)
    requires clients(Scenarios[i].mode).Client?
    requires svc.tasks(clients(Scenarios[i].mode).spec, Folder(Scenarios[i].mode)).put == Done
    ensures Folder(Scenarios[i].mode) in RunScenarios(store, Scenarios, clients, svc).store
  {
    UnrollScenarios(store, clients, svc);
    var p0 := Progress(store, [], false);
    var p1 := RunScenario(p0, Scenarios[0], clients, svc);
    var p2 := RunScenario(p1, Scenarios[1], clients, svc);
    ScenarioStore(p0, Scenarios[0], clients, svc);
    ScenarioStore(p1, Scenarios[1], clients, svc);
    ScenarioStore(p2, Scenarios[2], clients, svc);
  }

  /** The folder of a scenario that did not succeed is no created key. */
  lemma FailedFolderNotCreated(clients: Clients, svc: Service, i: int)
    requires 0 <= i < 3 && !Succeeds(Scenarios[i], clients, svc)
    ensures !CreatedBy(Scenarios, clients, svc, Folder(Scenarios[i].mode))
  {
    var f := Folder(Scenarios[i].mode);
    ScenarioModesDistinct();
    forall j | 0 <= j < 3 ensures (f == Folder(Scenarios[j].mode) ==> i == j) && f != FileKey(Folder(Scenarios[j].mode)) {
      FolderInjective(Scenarios[i].mode, Scenarios[j].mode);
      FolderIsNoFileKey(Scenarios[i].mode, Folder(Scenarios[j].mode));
    }
  }

  /** Listing and cleanup never remove a key that is not in `created_keys`. */
  lemma CleanupSparesUncreated(store: Store, clients: Clients, svc: Service)
    ensures var p := RunScenarios(store, Scenarios, clients, svc);
      forall k :: k in p.store && k !in p.created ==> k in RunWithConfig(store, clients, svc).store
  {
  }

  /** A scenario that created its folder marker but then failed is skipped by
      the bookkeeping, so its folder marker stays in the bucket after the
      run, cleanup or not. */
  lemma FailedScenarioLeavesFolder(store: Store, clients: Clients, svc: Service, i: int)
    requires 0 <= i < 3 && !SomeExits(Scenarios, clients)
    requires clients(Scenarios[i].mode).Client?
    requires var replies := svc.tasks(clients(Scenarios[i].mode).spec, Folder(Scenarios[i].mode));
      replies.put == Done && replies.upload.Raised?
    ensures Folder(Scenarios[i].mode) in RunWithConfig(store, clients, svc).store
  {
    var f := Folder(Scenarios[i].mode);
    var p := RunScenarios(store, Scenarios, clients, svc);
    MarkerSurvivesLoop(store, clients, svc, i);
    FailedFolderNotCreated(clients, svc, i);
    ScenarioLoopCreatedBy(store, Scenarios, clients, svc);
    CleanupSparesUncreated(store, clients, svc);
    assert f !in p.created;
  }
}
